=== FILE: README.md ===
# Job-shop scheduling, modelled and verified in Dafny

This project models the scheduling core of a small job-shop scheduler. In the
problem each job is an ordered list of operations, and each operation needs
one machine for a given duration. The goal is an assignment of start times
with a small makespan, the time at which the last machine falls idle. The
repository holds five pieces of scheduling code, and each becomes one Dafny
module. Only the exact solver and the cultural algorithm (whose two halves are
the second and third modules) tackle that problem as stated:

- `BranchAndBound` (`branch_and_bound.dfy`) is the exact solver.
  - It is a depth-first search that dispatches one operation at a time.
  - Each operation starts once both its machine and its job are free.
  - Candidates are tried Longest-Remaining-Processing-Time first.
  - A branch is pruned once the running makespan reaches the best one found.
  - Every change is undone on the way back.
  - The search is a `Scheduler` class. Its per-job and per-machine tables are arrays, and the partial schedule is an `AssignList` object it appends to and pops from.
  - The dispatch rule is also written as pure functions, `Place` and `Dispatch`. The search is proved against them.
- `CulturalOperators` (`cultural_operators.dfy`) holds the cultural algorithm's genetic operators.
  - `Selection` is a binary tournament.
  - `Crossover` is an order-style crossover. It fills a child array with a two-pointer loop.
  - `Mutation` is a belief-guided mutation that swaps two positions of a copy.
- `CulturalSchedule` (`cultural_schedule.dfy`) covers the cultural algorithm's chromosome and fitness engine.
  - A chromosome lists job ids, each job once per operation, in shuffled order.
  - The fitness engine replays the chromosome with machine timers, job timers and operation counters.
- `SequentialScheduler` (`sequential_scheduler.dfy`) is the demo front end's simple scheduler.
  - Job priorities are derived from dependency counts.
  - Operations are laid back to back per machine, with machines numbered from 1.
  - It ignores the order of a job's operations: a job's previous end plays no part (`BackToBack`), so its result need not be a valid job-shop schedule.
- `MachineAssignment` (`machine_assignment.dfy`) solves a different problem: it assigns whole jobs to machines, and its fitness is the largest machine load.

`Agreement` (`agreement.dfy`) connects two of them. Replaying a job sequence
in the fitness engine yields exactly the machine timers, job timers and
progress counters that the exact solver reaches by dispatching that sequence.
Every chromosome the fitness engine accepts is such a sequence, so for every
chromosome, and for every one `create_random_schedule` returns, the fitness
is the solver's makespan for the same job sequence. `Lists` and `Options` hold small shared helpers:

- `max` of a list.
- Sums.
- Python's negative indexing.
- An `Option` type, and the `Outcome` of a call that may raise a Python exception.

Random draws are parameters of the operations that consume them. Each has a
precondition giving the range Python draws it from:

- the indices of `random.randint` and `random.sample`;
- the index sequence of `random.shuffle`;
- the float coin tests, as booleans.

Some Python exceptions become results of the form `Raised(IndexError)` or
`Raised(ValueError)`. This applies to crossover, mutation and the
machine-assignment `create_random_schedule`. The other exception paths are
excluded by preconditions, and each is named under "## Left out".

Two behaviours of the code are worth spelling out:

- **Crossover fill order.** The child's free positions are filled from position 0 up, skipping the slice taken from parent 1.
- **Dead-end branch of the exact solver.** The `if not ops` branch of `backtrack` cannot be reached: an incomplete job always offers its next operation. `Expand` proves it unreachable.

## Model

| member | source | states |
|---|---|---|
| Lists.MaxOf | final/backtrack.py:55 | the maximum of a non-empty list is one of its entries and at least every entry |
| Lists.Max | final/backtrack.py:69 | `max(a, b)` is one of its arguments and at least both |
| Lists.PyIndex | cultural_algorithm/schedule.py:31 | Python indexing with `-n <= i < n`: a valid position, `i` itself or `n + i` for a negative `i` |
| BranchAndBound.Job.NextOp | final/backtrack.py:18-19 | the next operation exists exactly when the job is not complete, and it is then `ops[prog]` |
| BranchAndBound.Job.Complete | final/backtrack.py:19 | a job is complete once its progress counter reaches its number of operations |
| BranchAndBound.Initial | final/backtrack.py:93-95 | the start state has a timer per machine and a timer and counter per job, and its running makespan `max(timeline)` is 0 |
| BranchAndBound.AllComplete | final/backtrack.py:54 | every job is complete exactly when no operation remains to dispatch |
| BranchAndBound.NoneRemaining | final/backtrack.py:54 | the remaining-operation count is zero exactly when every job is complete |
| BranchAndBound.Place | final/backtrack.py:68-79 | placing a job's next operation: start is the later of machine and job free time, end is start plus duration, both timers move to the end, only that job's progress rises by one |
| BranchAndBound.Dispatch | final/backtrack.py:67-82 | dispatching a job sequence gives one assignment per entry, for that job, on a machine in range |
| BranchAndBound.RemainingStep | final/backtrack.py:79-82 | each placement consumes exactly one remaining operation, so the search depth decreases |
| BranchAndBound.RemainingInitial | final/backtrack.py:93-96 | from the all-zero state every operation remains, so the search is at most the total operation count deep |
| BranchAndBound.DispatchAppend | final/backtrack.py:67-82 | dispatching one more job is placing it in the state the sequence reached |
| BranchAndBound.DispatchMonotone | final/backtrack.py:69-78 | machine and job free times never decrease while dispatching |
| BranchAndBound.TimersBoundMakespan | final/backtrack.py:81 | the current `max(timeline)` is a lower bound on the makespan of every completion |
| BranchAndBound.PrunedBound | final/backtrack.py:81-84 | a pruned branch, whose running makespan has reached the bound, has no completion below it |
| BranchAndBound.LowerBoundStep | final/backtrack.py:67-89 | a bound that holds after every possible next placement holds for the node |
| BranchAndBound.BoundAfterEachExtend | final/backtrack.py:67-89 | after one more candidate is tried, the (lowered) bound holds for every candidate tried so far |
| BranchAndBound.TriedEveryCandidate | final/backtrack.py:62-89 | once the loop has tried every incomplete job's next operation, no completion of the node beats the bound |
| BranchAndBound.StartsAfterTimers | final/backtrack.py:69 | every assignment dispatched from a state starts no earlier than that state's machine and job free times |
| BranchAndBound.DispatchIsConsistent | final/backtrack.py:68-78 | a dispatched schedule never overlaps two operations on one machine and runs each job's operations one after another |
| BranchAndBound.Tracker.constructor | final/backtrack.py:26 | the node, prune and solution counters start at zero |
| BranchAndBound.AssignList.constructor | final/backtrack.py:96 | the partial schedule starts empty |
| BranchAndBound.AssignList.Append | final/backtrack.py:72 | `sched.append` adds the assignment at the end |
| BranchAndBound.AssignList.Pop | final/backtrack.py:86 | `sched.pop` removes and returns the last assignment |
| BranchAndBound.Rem | final/backtrack.py:45 | the remaining processing time is 0 for a complete job and at least the next operation's duration otherwise |
| BranchAndBound.RemStep | final/backtrack.py:45 | an incomplete job's remaining time is its next operation's duration plus the remaining time after it |
| BranchAndBound.InsertRanked | final/backtrack.py:48 | inserting into a strictly LRPT-ordered list keeps it ordered and adds exactly that candidate |
| BranchAndBound.SortByRank | final/backtrack.py:48 | the sort yields the same candidates ordered by (remaining time, job id), largest first |
| BranchAndBound.Strip | final/backtrack.py:49 | dropping the remaining times keeps every (job, operation) pair in place |
| BranchAndBound.SortedCandidates | final/backtrack.py:41-49 | sorting a full candidate list gives each incomplete job's next operation, nothing for complete jobs, in LRPT order |
| BranchAndBound.ReachedStep | final/backtrack.py:72-82 | the arrays and partial schedule after a placement describe the job sequence extended by that job |
| BranchAndBound.Scheduler.constructor | final/backtrack.py:32-37 | no best schedule, `best_ms` at 10**9, fresh zeroed counters |
| BranchAndBound.Scheduler.AvailOps | final/backtrack.py:39-49 | one candidate per incomplete job, its next operation, none for complete jobs, ordered by (remaining time, id) descending |
| BranchAndBound.Scheduler.RankCandidates | final/backtrack.py:40-46 | the scan lists each incomplete job once, in job order, with its next operation and remaining processing time |
| BranchAndBound.Scheduler.Backtrack | final/backtrack.py:51-89 | counts the node, leaves `sched`, `timeline`, `job_last_end` and `prog` as they were, never raises `best_ms`, and on return no completion of the current partial schedule beats `best_ms` |
| BranchAndBound.Scheduler.Record | final/backtrack.py:54-60 | at a leaf the solution is counted; exactly when `max(timeline) < best_ms`, `best_ms` becomes `max(timeline)` and `best` the current schedule, otherwise both stay as they were |
| BranchAndBound.Scheduler.Expand | final/backtrack.py:62-67 | an inner node always has a candidate (the dead end is unreachable); after trying all, the state is restored and the bound holds |
| BranchAndBound.Scheduler.TryAll | final/backtrack.py:67-89 | the candidate loop restores the state after each candidate and leaves the bound holding after every candidate |
| BranchAndBound.Scheduler.Branch | final/backtrack.py:67-89 | one candidate: place it, then recurse (the node count rises) when the placed `max(timeline) < best_ms`, else add exactly one to `pruned` and leave `nodes`, `sol`, `best` and `best_ms` alone; undo; the bound holds after the placement |
| BranchAndBound.Scheduler.Advance | final/backtrack.py:68-79 | the placement writes exactly the `Place` state and appends its assignment, returning the two old timer values |
| BranchAndBound.Scheduler.Retreat | final/backtrack.py:86-89 | the undo pops the assignment and restores all three tables to the state before the placement |
| BranchAndBound.Scheduler.Solve | final/backtrack.py:91-98 | starting from all zeros, the returned makespan is at most every complete dispatch order's makespan, and a returned schedule is a complete dispatch achieving it; with none, the sentinel |
| CulturalOperators.Selection | cultural_algorithm/operators.py:5-14 | the winner is a member; it is the first draw exactly when its fitness is strictly smaller, else the second |
| CulturalOperators.SelectionPicksFitter | cultural_algorithm/operators.py:10-14 | the winner is a drawn individual with fitness at most both drawn fitnesses |
| CulturalOperators.Leftover | cultural_algorithm/operators.py:34-42 | the genes left of parent 2 after skipping the slice's counts are at most parent 2's length and all come from parent 2 |
| CulturalOperators.Filled | cultural_algorithm/operators.py:44-56 | `IndexError` exactly when there are more genes than free positions; otherwise a child of parent 1's length with parent 1's slice in place, and with every position filled when the genes match the free positions |
| CulturalOperators.Child | cultural_algorithm/operators.py:27-56 | a successful child has parent 1's length, keeps the slice, and holds only genes of the parents |
| CulturalOperators.LeftoverMultiset | cultural_algorithm/operators.py:37-42 | the genes collected from parent 2 are parent 2's multiset minus the slice's |
| CulturalOperators.LeftoverItems | cultural_algorithm/operators.py:33-42 | the counter loop collects parent 2's genes in order, skipping as many of each value as the slice holds |
| CulturalOperators.FillGaps | cultural_algorithm/operators.py:44-56 | the two-pointer loop fills the free positions before, then after, the slice with the collected genes in order, leaving `None` when they run out and raising `IndexError` when they do not fit |
| CulturalOperators.Crossover | cultural_algorithm/operators.py:17-58 | `ValueError` below two genes; otherwise the child for the sorted draws, of parent 1's length with parent 1's slice in place |
| CulturalOperators.LeftoverFillsGaps | cultural_algorithm/operators.py:34-42 | with equal parent multisets, the collected genes exactly fill the positions outside the slice |
| CulturalOperators.CrossoverKeepsJobs | cultural_algorithm/operators.py:17-58 | with equal parent multisets the crossover succeeds, leaves no `None`, and the child holds the same multiset of job ids |
| CulturalOperators.IndexOf | cultural_algorithm/operators.py:81-82 | `list.index`: the first position of the value, or absent exactly when the value does not occur |
| CulturalOperators.CriticalJobs | cultural_algorithm/operators.py:101 | defined as `get('critical_jobs', [])`; it carries no contract of its own, and `DomainSwap` states its use |
| CulturalOperators.HasHistory | cultural_algorithm/operators.py:73 | defined as Python truthiness of the best schedule (present and non-empty); it carries no contract of its own, and `SituationalFires` and `CulturalMove` branch on it |
| CulturalOperators.Swap | cultural_algorithm/operators.py:88 | exchanging two positions swaps their genes, leaves every other position alone, and keeps the length and the multiset |
| CulturalOperators.Mutation | cultural_algorithm/operators.py:61-119 | `ValueError` exactly for a cultural move on fewer than two genes; otherwise a permutation of the input: the situational swap, else the critical-job swap to the left, else no change, or in the plain branch a swap only when the rate coin passes |
| CulturalOperators.CulturalMove | cultural_algorithm/operators.py:67-107 | the cultural branch: situational swap when it fires, else domain swap when the job is critical, else unchanged; `ValueError` below two genes |
| CulturalOperators.SituationalSwap | cultural_algorithm/operators.py:71-91 | swaps the two sorted draws exactly when both jobs occur in the best schedule with the later-drawn one first; a missing job changes nothing |
| CulturalOperators.DomainSwap | cultural_algorithm/operators.py:96-107 | swaps the drawn position with its left neighbour exactly when its job is critical |
| CulturalOperators.SituationalFollowsLeader | cultural_algorithm/operators.py:84-89 | after a situational swap the two positions appear in the best schedule's order |
| CulturalSchedule.RepeatCount | cultural_algorithm/schedule.py:8 | `[v] * n` holds `v` exactly `n` times and nothing else |
| CulturalSchedule.Layout | cultural_algorithm/schedule.py:7-8 | the unshuffled list has one entry per operation, each a job id |
| CulturalSchedule.LayoutCounts | cultural_algorithm/schedule.py:7-8 | the unshuffled list has one entry per operation, job `j` exactly once per operation of `j`, and no other value |
| CulturalSchedule.BuildLayout | cultural_algorithm/schedule.py:7-8 | the `extend` loop builds the job-by-job layout |
| CulturalSchedule.Shuffled | cultural_algorithm/schedule.py:10 | Fisher-Yates from the back keeps the length |
| CulturalSchedule.ShufflePermutes | cultural_algorithm/schedule.py:10 | the shuffle is a permutation of its input |
| CulturalSchedule.Shuffle | cultural_algorithm/schedule.py:10 | the in-place shuffle leaves the array as `Shuffled` of its old contents, a permutation |
| CulturalSchedule.ShuffledLayout | cultural_algorithm/schedule.py:7-10 | the shuffled layout is a permutation of the layout, as long as the operation count, with job `j` exactly `len(jobs[j])` times and only job ids |
| CulturalSchedule.CreateRandomSchedule | cultural_algorithm/schedule.py:4-11 | the chromosome is the shuffled layout: total-operation-count long, job `j` exactly `len(jobs[j])` times, every entry a job id |
| CulturalSchedule.Step | cultural_algorithm/schedule.py:24-41 | replaying one entry keeps the timer shapes and advances only that job's operation counter |
| CulturalSchedule.Replay | cultural_algorithm/schedule.py:22-41 | after any prefix, the operation counter of job `j` equals the number of occurrences of `j` in it |
| CulturalSchedule.CalculateFitness | cultural_algorithm/schedule.py:14-45 | returns `max(machine_timers)` of the replay; with non-negative durations it is non-negative and at least every job timer |
| CulturalSchedule.ReplayEntry | cultural_algorithm/schedule.py:24-41 | the loop body leaves the three arrays as one `Step` of the replay |
| CulturalSchedule.ReplayStep | cultural_algorithm/schedule.py:22-41 | replaying one more entry is one `Step`, and that job still has an operation left |
| CulturalSchedule.StepMonotone | cultural_algorithm/schedule.py:35-40 | with non-negative durations one step moves no timer back |
| CulturalSchedule.ReplayGrows | cultural_algorithm/schedule.py:35-40 | replaying the last entry moves no timer back |
| CulturalSchedule.ReplayMonotone | cultural_algorithm/schedule.py:35-40 | the timers after a prefix are at most the timers after the whole chromosome |
| CulturalSchedule.TimersNonNegative | cultural_algorithm/schedule.py:16-40 | with non-negative durations every timer stays non-negative |
| CulturalSchedule.JobsFinishByMakespan | cultural_algorithm/schedule.py:44-45 | no job timer exceeds the makespan |
| CulturalSchedule.MachineTimerCoversWork | cultural_algorithm/schedule.py:35-40 | a machine's final timer is at least the total duration replayed on it |
| CulturalSchedule.JobTimerCoversWork | cultural_algorithm/schedule.py:35-40 | a job's final timer is at least the total duration of its replayed operations |
| MachineAssignment.CreateRandomSchedule | schedule.py:4-11 | `ValueError` exactly when there are jobs but no machine; otherwise the drawn machines, one per job, each in `[0, num_machines - 1]` |
| MachineAssignment.Load | schedule.py:17-19 | the load of a machine, and zero for a number beyond the last machine |
| MachineAssignment.Loads | schedule.py:16-19 | defined as the list of per-machine `Load`s; it carries no contract of its own, and `LoadsSumToTotal` and `MakespanBounds` state its properties |
| MachineAssignment.CalculateFitness | schedule.py:14-22 | the makespan is the load of some machine and at least every machine's load |
| MachineAssignment.LoadsSumToTotal | schedule.py:17-19 | the loads sum to the total duration of the scheduled jobs |
| MachineAssignment.LoadNonNegative | schedule.py:17-19 | with non-negative durations every load is non-negative |
| MachineAssignment.LoadCoversJob | schedule.py:17-19 | a job's machine carries at least that job's duration |
| MachineAssignment.MakespanBounds | schedule.py:21-22 | with non-negative durations the makespan lies between the longest scheduled job and the total duration |
| SequentialScheduler.Job.constructor | test/job_scheduler.py:12-17 | a job starts with priority 0 |
| SequentialScheduler.Job.NextOp | test/job_scheduler.py:19-23 | the next operation exists exactly when the job is not complete, and for a non-negative counter it is `ops[prog]` |
| SequentialScheduler.Job.Complete | test/job_scheduler.py:22-23 | a job is complete once its progress counter reaches its number of operations |
| SequentialScheduler.LayOne | test/job_scheduler.py:52-56 | laying one more operation moves its machine's free time on by its duration and appends an assignment starting at the old free time |
| SequentialScheduler.Timeline | test/job_scheduler.py:48-55 | one free time per machine |
| SequentialScheduler.Schedule | test/job_scheduler.py:49-56 | one assignment per laid operation, each naming a machine the timeline can index |
| SequentialScheduler.Scheduler.constructor | test/job_scheduler.py:34-42 | no best schedule, `best_ms` at 10**9, no solutions, and every job's priority is minus its dependency count |
| SequentialScheduler.Scheduler.SimpleSchedule | test/job_scheduler.py:44-58 | the schedule lays every operation in job order, then operation order; the makespan is `max(timeline)`, the largest total duration on any machine |
| SequentialScheduler.Scheduler.LayJob | test/job_scheduler.py:51-56 | the inner loop lays one job's operations after everything laid so far |
| SequentialScheduler.ScheduleFollowsEntries | test/job_scheduler.py:49-56 | one assignment per operation, in order, recording its job, operation and 1-based machine, lasting exactly its duration |
| SequentialScheduler.TimelineIsLoad | test/job_scheduler.py:53-55 | each machine's free time is the total duration laid on it |
| SequentialScheduler.TimelineIsLastEnd | test/job_scheduler.py:53-55 | each machine's free time is the end of its last assignment, 0 if unused |
| SequentialScheduler.StartIsLastEnd | test/job_scheduler.py:53-55 | the k-th assignment starts where the last earlier one on its machine ended |
| SequentialScheduler.BackToBack | test/job_scheduler.py:53-55 | every assignment starts at the previous end on its machine (0 for the first); the job's own previous end plays no part |
| SequentialScheduler.MakespanIsLargestLoad | test/job_scheduler.py:57-58 | `max(timeline)` is the largest total duration on any machine |
| Agreement.ToCultural | cultural_algorithm/schedule.py:27-28 | defined as each operation's `(machine, duration)` pair, job by job; it carries no contract of its own, and `ToCulturalInRange` and `ReplayMatchesDispatch` state its properties |
| Agreement.ToCulturalInRange | cultural_algorithm/schedule.py:31 | the solver's machine numbers index the fitness engine's timers |
| Agreement.StepMatchesPlace | cultural_algorithm/schedule.py:31-41 | one fitness-engine step and one solver placement (final/backtrack.py:68-79) of the same job agree |
| Agreement.ReplayMatchesDispatch | cultural_algorithm/schedule.py:22-41 | replaying any sequence the solver can dispatch is a valid chromosome replay with the solver's machine timers, job timers and progress |
| Agreement.FitnessMatchesMakespan | cultural_algorithm/schedule.py:44-45 | the fitness of such a chromosome equals the solver's `max(timeline)` for the same job sequence |
| Agreement.CountsDispatchable | final/backtrack.py:67-79 | a job sequence that names only existing jobs, and each job no more often than it has operations left, can be dispatched from that state: the solver never meets a job with nothing to run |
| Agreement.DecodableDispatchable | cultural_algorithm/schedule.py:22-28 | every chromosome the fitness engine can replay (entries are job numbers, each job at most once per operation) is a job sequence the solver can dispatch from all zeros |
| Agreement.ChromosomeFitnessIsMakespan | cultural_algorithm/schedule.py:14-45 | for every such chromosome, including each one `create_random_schedule` returns, the fitness equals the solver's `max(timeline)` (final/backtrack.py:67-79) for the same job sequence, and a full chromosome, holding each job once per operation, completes every job |

## Left out

- The GUI and Streamlit front ends, console input, CSV export and Gantt printing are I/O only.
- The `Tracker` wall-clock fields (`start`, `end`, `elapsed`) read the clock. Only the three counters are modelled.
- Random number generation and the probabilities `0.3` and `mutation_rate` are not modelled. Every draw is a parameter restricted to the range it is drawn from, and float coin tests are booleans. Distributions are not modelled.
- CulturalSchedule.Shuffle is proved to permute its input. The model does not prove that every permutation can be drawn.
- `copy.deepcopy` is implicit: parents, chromosomes and schedules are values, so inputs are never changed.
- Job dependencies and cycle detection do not occur in the modelled search. `deps` only feeds the priority.
- The truncated driver `cultural_algorithm.py` and the belief-space update loop are not part of this model.
- BranchAndBound.Op: durations, operation ids and machines are naturals, and job ids are the jobs' positions, as the console input builds them. Negative values are not modelled.
- BranchAndBound.Scheduler.Expand: the dead-end branch that counts a prune is proved unreachable, so it is never executed in the model.
- BranchAndBound.Scheduler.Solve: requires at least one machine and machine numbers in range. Python would raise on `max([])` or an index error otherwise.
- CulturalSchedule.CalculateFitness: requires every chromosome entry to be a job id and no job to occur more often than it has operations. It also requires at least one machine. The `IndexError`, the `ValueError`, and Python's wrap-around on a negative job id in those cases are not modelled.
- MachineAssignment.CalculateFitness: requires a schedule no longer than the job list, entries that are valid Python indices and at least one machine. The `IndexError` and `ValueError` otherwise raised are not modelled.
- SequentialScheduler.Scheduler.SimpleSchedule: requires at least one machine and machine numbers whose `mach - 1` is a valid Python index. The `IndexError` and `ValueError` otherwise raised are not modelled.
- CulturalOperators.Selection: requires both drawn indices to lie inside the population and the fitness list. The `ValueError` of `randint` on an empty population and the `IndexError` of a short fitness list are not modelled.
- SequentialScheduler.Job.NextOp: requires `prog >= -len(ops)`. The `IndexError` Python raises for a smaller counter is not modelled.
- `all_sols` in test/job_scheduler.py is initialised but never written, and it stays an empty field.

=== FILE: agreement.dfy ===
/** The cultural algorithm's fitness engine and the exact solver place
    operations by the same rule: an operation starts once both its machine and
    its job are free. Replaying a job sequence as a chromosome therefore ends
    with exactly the timers the solver reaches by dispatching that sequence. */
module Agreement {
  import opened Lists
  import BB = BranchAndBound
  import CS = CulturalSchedule

  /** The solver's jobs as the fitness engine reads them: per job, the
      `(machine, duration)` pairs of its operations. */
  function ToCultural(jobs: seq<BB.Job>): seq<seq<CS.Operation>>
  {
    seq(|jobs|, j requires 0 <= j < |jobs| =>
      seq(|jobs[j].ops|, k requires 0 <= k < |jobs[j].ops| => CS.Operation(jobs[j].ops[k].mach, jobs[j].ops[k].dur)))
  }

  /** A sequence that can be dispatched after `order` leaves `order` itself
      dispatchable, with its last job still incomplete. */
  lemma {:induction false} DispatchSplit(jobs: seq<BB.Job>, st: BB.State, order: seq<nat>, j: nat)
    requires BB.Fits(jobs, st) && BB.CanDispatch(jobs, st, order + [j])
    ensures BB.CanDispatch(jobs, st, order)
    ensures j < |jobs| && !jobs[j].Complete(BB.Dispatch(jobs, st, order).0.prog[j])
    decreases |order|
  {
    if order == [] {
      assert [j][1..] == [];
    } else {
      assert (order + [j])[0] == order[0];
      assert (order + [j])[1..] == order[1..] + [j];
      DispatchSplit(jobs, BB.Place(jobs, st, order[0]).0, order[1..], j);
    }
  }

  /** The fitness engine's timers agree with the solver's state. */
  predicate Matches(t: CS.Timers, st: BB.State)
  {
    t.machine == st.timeline && t.job == st.jobEnd && t.count == st.prog
  }

  /** The solver's machine numbers are valid indices for the fitness engine. */
  lemma ToCulturalInRange(machines: nat, jobs: seq<BB.Job>)
    requires BB.WellFormed(machines, jobs)
    ensures CS.MachinesInRange(ToCultural(jobs), machines)
  {
  }

  /** One replay step and one solver placement of the same job agree. */
  lemma StepMatchesPlace(machines: nat, jobs: seq<BB.Job>, t: CS.Timers, st: BB.State, j: nat)
    requires BB.Fits(jobs, st) && |st.timeline| == machines
    requires Matches(t, st) && j < |jobs| && !jobs[j].Complete(st.prog[j])
    ensures CS.MachinesInRange(ToCultural(jobs), machines)
    ensures CS.Shaped(t, machines, |jobs|) && t.count[j] < |ToCultural(jobs)[j]|
    ensures Matches(CS.Step(ToCultural(jobs), machines, t, j), BB.Place(jobs, st, j).0)
  {
    ToCulturalInRange(machines, jobs);
  }

  /** Replaying a dispatchable job sequence gives the solver's machine free
      times, job free times and progress counters. */
  lemma {:induction false} ReplayMatchesDispatch(machines: nat, jobs: seq<BB.Job>, order: seq<nat>)
    requires BB.WellFormed(machines, jobs)
    requires BB.CanDispatch(jobs, BB.Initial(machines, |jobs|), order)
    ensures CS.MachinesInRange(ToCultural(jobs), machines)
    ensures CS.Decodable(ToCultural(jobs), order)
    ensures Matches(CS.Replay(ToCultural(jobs), machines, order),
                    BB.Dispatch(jobs, BB.Initial(machines, |jobs|), order).0)
  {
    var cj := ToCultural(jobs);
    var init := BB.Initial(machines, |jobs|);
    ToCulturalInRange(machines, jobs);
    if order == [] {
      assert CS.Replay(cj, machines, order).machine == init.timeline;
      assert CS.Replay(cj, machines, order).job == init.jobEnd;
      assert CS.Replay(cj, machines, order).count == init.prog;
    } else {
      var n := |order| - 1;
      var j := order[n];
      var prefix := order[..n];
      assert order == prefix + [j];
      DispatchSplit(jobs, init, prefix, j);
      ReplayMatchesDispatch(machines, jobs, prefix);
      BB.DispatchAppend(jobs, init, prefix, j);
      var st := BB.Dispatch(jobs, init, prefix).0;
      var t := CS.Replay(cj, machines, prefix);
      StepMatchesPlace(machines, jobs, t, st, j);
      DecodableExtend(cj, prefix, j);
      assert CS.Replay(cj, machines, order) == CS.Step(cj, machines, t, j);
    }
  }

  /** Appending a job that still has an operation left keeps a chromosome
      replayable. */
  lemma DecodableExtend(jobs: seq<seq<CS.Operation>>, s: seq<int>, j: int)
    requires CS.Decodable(jobs, s) && 0 <= j < |jobs| && multiset(s)[j] < |jobs[j]|
    ensures CS.Decodable(jobs, s + [j])
  {
    assert multiset(s + [j]) == multiset(s) + multiset{j};
  }

  /** The fitness of a chromosome is the makespan the solver reaches by
      dispatching the same job sequence. */
  lemma FitnessMatchesMakespan(machines: nat, jobs: seq<BB.Job>, order: seq<nat>)
    requires BB.WellFormed(machines, jobs)
    requires BB.CanDispatch(jobs, BB.Initial(machines, |jobs|), order)
    ensures CS.MachinesInRange(ToCultural(jobs), machines) && CS.Decodable(ToCultural(jobs), order)
    ensures MaxOf(CS.Replay(ToCultural(jobs), machines, order).machine)
      == BB.Makespan(jobs, BB.Initial(machines, |jobs|), order)
  {
    ReplayMatchesDispatch(machines, jobs, order);
  }

  /** A job sequence that names existing jobs, and each job no more often
      than it has operations left, can be dispatched. */
  lemma {:induction false} CountsDispatchable(jobs: seq<BB.Job>, st: BB.State, order: seq<nat>)
    requires BB.Fits(jobs, st)
    requires forall k :: 0 <= k < |order| ==> order[k] < |jobs|
    requires forall j :: 0 <= j < |jobs| ==> st.prog[j] + multiset(order)[j] <= |jobs[j].ops|
    ensures BB.CanDispatch(jobs, st, order)
    decreases |order|
  {
    if order != [] {
      var j := order[0];
      assert order == [j] + order[1..];
      assert multiset(order) == multiset{j} + multiset(order[1..]);
      var next := BB.Place(jobs, st, j).0;
      forall k | 0 <= k < |order[1..]| ensures order[1..][k] < |jobs| {
        assert order[1..][k] == order[k + 1];
      }
      forall i | 0 <= i < |jobs| ensures next.prog[i] + multiset(order[1..])[i] <= |jobs[i].ops| {
        if i == j {
          assert multiset(order)[i] == 1 + multiset(order[1..])[i];
        } else {
          assert multiset(order)[i] == multiset(order[1..])[i];
        }
      }
      CountsDispatchable(jobs, next, order[1..]);
    }
  }

  /** Every chromosome the fitness engine can replay is a job sequence the
      solver can dispatch from its initial state. */
  lemma DecodableDispatchable(machines: nat, jobs: seq<BB.Job>, c: seq<int>)
    requires BB.WellFormed(machines, jobs) && CS.Decodable(ToCultural(jobs), c)
    ensures forall k :: 0 <= k < |c| ==> 0 <= c[k] < |jobs|
    ensures BB.CanDispatch(jobs, BB.Initial(machines, |jobs|), c)
  {
    var init := BB.Initial(machines, |jobs|);
    forall j | 0 <= j < |jobs| ensures init.prog[j] + multiset(c)[j] <= |jobs[j].ops| {
      assert |ToCultural(jobs)[j]| == |jobs[j].ops|;
    }
    CountsDispatchable(jobs, init, c);
  }

  /** The fitness of every chromosome the fitness engine accepts is the
      makespan the solver reaches by dispatching the same job sequence; a
      full chromosome, holding each job once per operation, also completes
      every job. */
  lemma ChromosomeFitnessIsMakespan(machines: nat, jobs: seq<BB.Job>, c: seq<int>)
    requires BB.WellFormed(machines, jobs) && CS.Decodable(ToCultural(jobs), c)
    ensures CS.MachinesInRange(ToCultural(jobs), machines)
    ensures forall k :: 0 <= k < |c| ==> 0 <= c[k] < |jobs|
    ensures BB.CanDispatch(jobs, BB.Initial(machines, |jobs|), c)
    ensures MaxOf(CS.Replay(ToCultural(jobs), machines, c).machine)
      == BB.Makespan(jobs, BB.Initial(machines, |jobs|), c)
    ensures (forall j :: 0 <= j < |jobs| ==> multiset(c)[j] == |jobs[j].ops|)
      ==> BB.Completes(jobs, BB.Initial(machines, |jobs|), c)
  {
    DecodableDispatchable(machines, jobs, c);
    FitnessMatchesMakespan(machines, jobs, c);
    var init := BB.Initial(machines, |jobs|);
    if forall j :: 0 <= j < |jobs| ==> multiset(c)[j] == |jobs[j].ops| {
      ReplayMatchesDispatch(machines, jobs, c);
      var prog := BB.Dispatch(jobs, init, c).0.prog;
      forall j | 0 <= j < |jobs| ensures jobs[j].Complete(prog[j]) {
        assert prog[j] == CS.Replay(ToCultural(jobs), machines, c).count[j];
      }
    }
  }

}

=== FILE: branch_and_bound.dfy ===
/** The exact job-shop solver of final/backtrack.py: a depth-first
    branch-and-bound search that dispatches one operation at a time, orders the
    candidates Longest-Remaining-Processing-Time first, prunes on the best
    makespan found so far and undoes every mutation on the way back.

    Job ids are the jobs' positions in the job list (the console input builds
    them so), so the dictionaries `prog` and `job_last_end`, keyed by job id,
    become arrays indexed by job id. */
module BranchAndBound {
  import opened Options
  import opened Lists

  /** An operation: its index in its job, its duration and its 0-based machine. */
  datatype Op = Op(id: nat, dur: nat, mach: nat)

  /** A job: its id and its operations, to be run in order. */
  datatype Job = Job(id: nat, ops: seq<Op>)
  {
    /** A job is complete once its progress counter has passed its last operation. */
    predicate Complete(prog: nat)
    {
      prog >= |ops|
    }

    /** The operation a job runs next, or nothing once it is complete. */
    function NextOp(prog: nat): (r: Option<Op>)
      ensures r.Some? <==> !Complete(prog)
      ensures r.Some? ==> r.value == ops[prog]
    {
      if prog < |ops| then Some(ops[prog]) else None
    }
  }

  /** One placed operation: job, operation id, machine, start and end. */
  datatype Assign = Assign(j: nat, o: nat, m: nat, s: nat, e: nat)

  /** The initial `best_ms`, standing for "no solution yet". */
  const Sentinel: nat := 1_000_000_000

  ghost predicate IdsArePositions(jobs: seq<Job>)
  {
    forall i :: 0 <= i < |jobs| ==> jobs[i].id == i
  }

  /** Every machine id indexes the timeline. This is the solver's form of
      `CulturalSchedule.MachinesInRange`, which also admits negative Python
      indices; `Agreement.ToCulturalInRange` carries one to the other. */
  ghost predicate MachinesInRange(machines: nat, jobs: seq<Job>)
  {
    forall i, k :: 0 <= i < |jobs| && 0 <= k < |jobs[i].ops| ==> jobs[i].ops[k].mach < machines
  }

  /** What the search needs of its instance: at least one machine (so that
      `max(timeline)` is defined), ids that are positions, machine ids in range. */
  ghost predicate WellFormed(machines: nat, jobs: seq<Job>)
  {
    1 <= machines && IdsArePositions(jobs) && MachinesInRange(machines, jobs)
  }

  // ---------------------------------------------------------------------------
  // The dispatch semantics: the search state as a value, and what placing one
  // operation does to it.
  // ---------------------------------------------------------------------------

  /** The mutable search state: machine free times, job free times, progress. */
  datatype State = State(timeline: seq<nat>, jobEnd: seq<nat>, prog: seq<nat>)

  ghost predicate Fits(jobs: seq<Job>, st: State)
  {
    && WellFormed(|st.timeline|, jobs)
    && |st.jobEnd| == |jobs|
    && |st.prog| == |jobs|
  }

  /** The state `solve` starts from: every timer and counter at zero. */
  function Initial(machines: nat, n: nat): (r: State)
    ensures |r.timeline| == machines && |r.jobEnd| == n && |r.prog| == n
    ensures machines > 0 ==> MaxOf(r.timeline) == 0
  {
    State(seq(machines, _ => 0), seq(n, _ => 0), seq(n, _ => 0))
  }

  /** Every job has run all its operations. */
  predicate AllComplete(jobs: seq<Job>, prog: seq<nat>): (r: bool)
    requires |prog| == |jobs|
    ensures r <==> Remaining(jobs, prog) == 0
  {
    NoneRemaining(jobs, prog);
    forall j :: 0 <= j < |jobs| ==> jobs[j].Complete(prog[j])
  }

  /** Placing job `j`'s next operation: it starts once both its machine and its
      job are free, ends `dur` later, and both timers move to its end. */
  ghost function Place(jobs: seq<Job>, st: State, j: nat): (r: (State, Assign))
    requires Fits(jobs, st) && j < |jobs| && !jobs[j].Complete(st.prog[j])
    ensures Fits(jobs, r.0)
    ensures var op, a := jobs[j].ops[st.prog[j]], r.1;
      && a.j == j && a.o == op.id && a.m == op.mach && a.e == a.s + op.dur
      && st.timeline[a.m] <= a.s && st.jobEnd[j] <= a.s
      && (a.s == st.timeline[a.m] || a.s == st.jobEnd[j])
      && r.0 == State(st.timeline[a.m := a.e], st.jobEnd[j := a.e], st.prog[j := st.prog[j] + 1])
  {
    var op := jobs[j].ops[st.prog[j]];
    var start := Max(st.timeline[op.mach], st.jobEnd[j]);
    var end := start + op.dur;
    (State(st.timeline[op.mach := end], st.jobEnd[j := end], st.prog[j := st.prog[j] + 1]),
     Assign(j, op.id, op.mach, start, end))
  }

  /** `order` names, step by step, a job that still has an operation to run. */
  ghost predicate CanDispatch(jobs: seq<Job>, st: State, order: seq<nat>)
    requires Fits(jobs, st)
    decreases |order|
  {
    || order == []
    || (&& order[0] < |jobs|
        && !jobs[order[0]].Complete(st.prog[order[0]])
        && CanDispatch(jobs, Place(jobs, st, order[0]).0, order[1..]))
  }

  /** Dispatching a whole job sequence: the final state and the assignments made. */
  ghost function Dispatch(jobs: seq<Job>, st: State, order: seq<nat>): (r: (State, seq<Assign>))
    requires Fits(jobs, st) && CanDispatch(jobs, st, order)
    ensures Fits(jobs, r.0)
    ensures |r.0.timeline| == |st.timeline| && |r.1| == |order|
    ensures forall k :: 0 <= k < |order| ==> r.1[k].j == order[k] && order[k] < |jobs| && r.1[k].m < |st.timeline|
    decreases |order|
  {
    if order == [] then (st, [])
    else
      var step := Place(jobs, st, order[0]);
      var rest := Dispatch(jobs, step.0, order[1..]);
      (rest.0, [step.1] + rest.1)
  }

  /** `rest` dispatches every remaining operation. */
  ghost predicate Completes(jobs: seq<Job>, st: State, rest: seq<nat>)
    requires Fits(jobs, st)
  {
    CanDispatch(jobs, st, rest) && AllComplete(jobs, Dispatch(jobs, st, rest).0.prog)
  }

  /** The makespan reached after dispatching `rest`: the largest machine free time. */
  ghost function Makespan(jobs: seq<Job>, st: State, rest: seq<nat>): int
    requires Fits(jobs, st) && CanDispatch(jobs, st, rest)
  {
    MaxOf(Dispatch(jobs, st, rest).0.timeline)
  }

  /** No way of finishing the schedule from `st` beats `bound`. */
  ghost predicate LowerBound(jobs: seq<Job>, st: State, bound: int)
    requires Fits(jobs, st)
  {
    forall rest :: Completes(jobs, st, rest) ==> bound <= Makespan(jobs, st, rest)
  }

  /** The number of operations still to dispatch: the search's depth bound. */
  function Remaining(jobs: seq<Job>, prog: seq<nat>): nat
  {
    if jobs == [] || prog == [] then 0
    else (if prog[0] < |jobs[0].ops| then |jobs[0].ops| - prog[0] else 0) + Remaining(jobs[1..], prog[1..])
  }

  /** The number of operations over all jobs: `CulturalSchedule.TotalOps`
      over the solver's job records. */
  function OpCount(jobs: seq<Job>): nat
  {
    if jobs == [] then 0 else |jobs[0].ops| + OpCount(jobs[1..])
  }

  // ---------------------------------------------------------------------------
  // Lemmas about the dispatch semantics.
  // ---------------------------------------------------------------------------

  /** Nothing remains exactly when every job is complete. */
  lemma {:induction false} NoneRemaining(jobs: seq<Job>, prog: seq<nat>)
    requires |prog| == |jobs|
    ensures Remaining(jobs, prog) == 0 <==> forall j :: 0 <= j < |jobs| ==> jobs[j].Complete(prog[j])
  {
    if jobs != [] {
      NoneRemaining(jobs[1..], prog[1..]);
      if Remaining(jobs, prog) == 0 {
        forall j | 0 <= j < |jobs| ensures jobs[j].Complete(prog[j]) {
          if j > 0 {
            assert jobs[1..][j - 1] == jobs[j] && prog[1..][j - 1] == prog[j];
          }
        }
      } else if Remaining(jobs[1..], prog[1..]) != 0 {
        var j :| 0 <= j < |jobs[1..]| && !jobs[1..][j].Complete(prog[1..][j]);
        assert !jobs[j + 1].Complete(prog[j + 1]);
      }
    }
  }

  /** From the all-zero state every operation remains, so the search is at
      most the total number of operations deep. */
  lemma {:induction false} RemainingInitial(machines: nat, jobs: seq<Job>)
    ensures Remaining(jobs, Initial(machines, |jobs|).prog) == OpCount(jobs)
  {
    if jobs != [] {
      assert Initial(machines, |jobs|).prog[1..] == Initial(machines, |jobs| - 1).prog;
      RemainingInitial(machines, jobs[1..]);
    }
  }

  /** Each dispatch step consumes exactly one operation. */
  lemma {:induction false} RemainingStep(jobs: seq<Job>, prog: seq<nat>, j: nat)
    requires |prog| == |jobs| && j < |jobs| && prog[j] < |jobs[j].ops|
    ensures Remaining(jobs, prog[j := prog[j] + 1]) + 1 == Remaining(jobs, prog)
  {
    var p' := prog[j := prog[j] + 1];
    if j > 0 {
      assert p'[1..] == prog[1..][j - 1 := prog[j] + 1];
      RemainingStep(jobs[1..], prog[1..], j - 1);
    } else {
      assert p'[1..] == prog[1..];
    }
  }

  /** Dispatching one more job after a sequence is placing it in the state the
      sequence reached. */
  lemma {:induction false} DispatchAppend(jobs: seq<Job>, st: State, order: seq<nat>, j: nat)
    requires Fits(jobs, st) && CanDispatch(jobs, st, order)
    requires j < |jobs| && !jobs[j].Complete(Dispatch(jobs, st, order).0.prog[j])
    ensures CanDispatch(jobs, st, order + [j])
    ensures var d := Dispatch(jobs, st, order); var p := Place(jobs, d.0, j);
      Dispatch(jobs, st, order + [j]) == (p.0, d.1 + [p.1])
    decreases |order|
  {
    if order == [] {
      var p := Place(jobs, st, j);
      assert order + [j] == [j];
      assert [j][1..] == [];
      assert CanDispatch(jobs, p.0, []);
      assert Dispatch(jobs, p.0, []) == (p.0, []);
      assert Dispatch(jobs, st, [j]) == (p.0, [p.1] + []);
      assert Dispatch(jobs, st, order) == (st, []);
      assert [p.1] + [] == [] + [p.1];
    } else {
      var first := Place(jobs, st, order[0]);
      assert (order + [j])[0] == order[0];
      assert (order + [j])[1..] == order[1..] + [j];
      DispatchAppend(jobs, first.0, order[1..], j);
      var d' := Dispatch(jobs, first.0, order[1..]);
      var p := Place(jobs, d'.0, j);
      assert Dispatch(jobs, st, order) == (d'.0, [first.1] + d'.1);
      assert Dispatch(jobs, st, order + [j]) == (p.0, [first.1] + (d'.1 + [p.1]));
      assert [first.1] + (d'.1 + [p.1]) == ([first.1] + d'.1) + [p.1];
    }
  }

  /** Timers never move backwards while operations are dispatched. */
  lemma {:induction false} DispatchMonotone(jobs: seq<Job>, st: State, order: seq<nat>)
    requires Fits(jobs, st) && CanDispatch(jobs, st, order)
    ensures forall m :: 0 <= m < |st.timeline| ==> st.timeline[m] <= Dispatch(jobs, st, order).0.timeline[m]
    ensures forall j :: 0 <= j < |jobs| ==> st.jobEnd[j] <= Dispatch(jobs, st, order).0.jobEnd[j]
    decreases |order|
  {
    if order != [] {
      DispatchMonotone(jobs, Place(jobs, st, order[0]).0, order[1..]);
    }
  }

  /** The current machine free times already bound every completion's makespan. */
  lemma TimersBoundMakespan(jobs: seq<Job>, st: State)
    requires Fits(jobs, st)
    ensures LowerBound(jobs, st, MaxOf(st.timeline))
  {
    forall rest | Completes(jobs, st, rest)
      ensures MaxOf(st.timeline) <= Makespan(jobs, st, rest)
    {
      DispatchMonotone(jobs, st, rest);
      MaxOfMonotone(st.timeline, Dispatch(jobs, st, rest).0.timeline);
    }
  }

  /** A branch whose machine free times already reach the bound cannot beat it. */
  lemma PrunedBound(jobs: seq<Job>, st: State, bound: int)
    requires Fits(jobs, st) && bound <= MaxOf(st.timeline)
    ensures LowerBound(jobs, st, bound)
  {
    TimersBoundMakespan(jobs, st);
  }

  /** A bound that holds after every possible next step holds now. */
  lemma LowerBoundStep(jobs: seq<Job>, st: State, bound: int)
    requires Fits(jobs, st) && !AllComplete(jobs, st.prog)
    requires forall j :: 0 <= j < |jobs| && !jobs[j].Complete(st.prog[j]) ==>
      LowerBound(jobs, Place(jobs, st, j).0, bound)
    ensures LowerBound(jobs, st, bound)
  {
    forall rest | Completes(jobs, st, rest)
      ensures bound <= Makespan(jobs, st, rest)
    {
      assert rest != [];
      var next := Place(jobs, st, rest[0]).0;
      assert Dispatch(jobs, st, rest).0 == Dispatch(jobs, next, rest[1..]).0;
      assert Completes(jobs, next, rest[1..]);
    }
  }

  /** `bound` is a lower bound after placing the job of each candidate in
      `tried` in `st`. */
  ghost predicate BoundAfterEach(jobs: seq<Job>, st: State, tried: seq<Candidate>, bound: int)
    requires Fits(jobs, st)
  {
    forall k :: 0 <= k < |tried| ==>
      && tried[k].job.id < |jobs| && !jobs[tried[k].job.id].Complete(st.prog[tried[k].job.id])
      && LowerBound(jobs, Place(jobs, st, tried[k].job.id).0, bound)
  }

  /** Trying one more candidate, which lowers the bound at most to `lower`,
      keeps the bound for every candidate tried so far. */
  lemma BoundAfterEachExtend(jobs: seq<Job>, st: State, ops: seq<Candidate>, i: nat, bound: int, lower: int)
    requires Fits(jobs, st) && i < |ops| && BoundAfterEach(jobs, st, ops[..i], bound) && lower <= bound
    requires ops[i].job.id < |jobs| && !jobs[ops[i].job.id].Complete(st.prog[ops[i].job.id])
    requires LowerBound(jobs, Place(jobs, st, ops[i].job.id).0, lower)
    ensures BoundAfterEach(jobs, st, ops[..i + 1], lower)
  {
    var tried, c := ops[..i], ops[i];
    assert ops[..i + 1] == tried + [c];
    var t := tried + [c];
    forall k | 0 <= k < |t|
      ensures LowerBound(jobs, Place(jobs, st, t[k].job.id).0, lower)
    {
      if k < |tried| {
        LowerBoundWeaken(jobs, Place(jobs, st, tried[k].job.id).0, bound, lower);
      }
    }
  }

  /** Once every candidate has been tried, the bound holds for the node itself. */
  lemma TriedEveryCandidate(jobs: seq<Job>, st: State, ops: seq<Candidate>, bound: int)
    requires Fits(jobs, st) && !AllComplete(jobs, st.prog)
    requires forall j :: 0 <= j < |jobs| && !jobs[j].Complete(st.prog[j]) ==>
      Candidate(jobs[j], jobs[j].ops[st.prog[j]]) in ops
    requires BoundAfterEach(jobs, st, ops, bound)
    ensures LowerBound(jobs, st, bound)
  {
    forall j | 0 <= j < |jobs| && !jobs[j].Complete(st.prog[j])
      ensures LowerBound(jobs, Place(jobs, st, j).0, bound)
    {
      var k :| 0 <= k < |ops| && ops[k] == Candidate(jobs[j], jobs[j].ops[st.prog[j]]);
    }
    LowerBoundStep(jobs, st, bound);
  }

  /** A lower bound stays a lower bound when it is lowered. */
  lemma LowerBoundWeaken(jobs: seq<Job>, st: State, bound: int, lower: int)
    requires Fits(jobs, st) && LowerBound(jobs, st, bound) && lower <= bound
    ensures LowerBound(jobs, st, lower)
  {
  }

  /** Each assignment made from `st` starts no earlier than the timers of `st`. */
  lemma {:induction false} StartsAfterTimers(jobs: seq<Job>, st: State, order: seq<nat>)
    requires Fits(jobs, st) && CanDispatch(jobs, st, order)
    ensures forall a :: a in Dispatch(jobs, st, order).1 ==>
      a.m < |st.timeline| && a.j < |jobs| && st.timeline[a.m] <= a.s && st.jobEnd[a.j] <= a.s
    decreases |order|
  {
    if order != [] {
      var step := Place(jobs, st, order[0]);
      var a := Dispatch(jobs, st, order).1;
      var tail := Dispatch(jobs, step.0, order[1..]).1;
      assert a == [step.1] + tail;
      StartsAfterTimers(jobs, step.0, order[1..]);
      forall b | b in tail
        ensures st.timeline[b.m] <= b.s && st.jobEnd[b.j] <= b.s
      {
        assert st.timeline[b.m] <= step.0.timeline[b.m];
        assert st.jobEnd[b.j] <= step.0.jobEnd[b.j];
      }
    }
  }

  /** No two assignments on one machine overlap: the earlier one has ended
      before the later one starts. */
  ghost predicate MachinesDisjoint(a: seq<Assign>)
  {
    forall i, k :: 0 <= i < k < |a| && a[i].m == a[k].m ==> a[i].e <= a[k].s
  }

  /** Each job's assignments follow one another in time. */
  ghost predicate JobsSequential(a: seq<Assign>)
  {
    forall i, k :: 0 <= i < k < |a| && a[i].j == a[k].j ==> a[i].e <= a[k].s
  }

  /** Putting in front an assignment that ends before every later one on its
      machine, and before every later one of its job, keeps both properties. */
  lemma ConsConsistent(h: Assign, tail: seq<Assign>)
    requires MachinesDisjoint(tail) && JobsSequential(tail)
    requires forall b :: b in tail && b.m == h.m ==> h.e <= b.s
    requires forall b :: b in tail && b.j == h.j ==> h.e <= b.s
    ensures MachinesDisjoint([h] + tail) && JobsSequential([h] + tail)
  {
    var a := [h] + tail;
    forall i, k | 0 <= i < k < |a|
      ensures a[i].m == a[k].m ==> a[i].e <= a[k].s
      ensures a[i].j == a[k].j ==> a[i].e <= a[k].s
    {
      assert a[k] == tail[k - 1] && tail[k - 1] in tail;
      if i > 0 {
        assert a[i] == tail[i - 1];
      }
    }
  }

  /** A dispatched schedule never overlaps two operations on one machine and
      runs each job's operations one after another. */
  lemma {:induction false} DispatchIsConsistent(jobs: seq<Job>, st: State, order: seq<nat>)
    requires Fits(jobs, st) && CanDispatch(jobs, st, order)
    ensures MachinesDisjoint(Dispatch(jobs, st, order).1)
    ensures JobsSequential(Dispatch(jobs, st, order).1)
    decreases |order|
  {
    if order != [] {
      var step := Place(jobs, st, order[0]);
      var tail := Dispatch(jobs, step.0, order[1..]).1;
      DispatchIsConsistent(jobs, step.0, order[1..]);
      StartsAfterTimers(jobs, step.0, order[1..]);
      assert step.0.timeline[step.1.m] == step.1.e && step.0.jobEnd[step.1.j] == step.1.e;
      ConsConsistent(step.1, tail);
    }
  }

  /** Writing a slot and then writing its old value back restores the sequence. */
  lemma UndoUpdate(s: seq<nat>, i: nat, v: nat)
    requires i < |s|
    ensures s[i := v][i := s[i]] == s
  {
  }

  // ---------------------------------------------------------------------------
  // The solver's objects.
  // ---------------------------------------------------------------------------

  /** The search statistics, as integer counters (wall-clock time is left out). */
  class Tracker {
    var nodes: nat
    var pruned: nat
    var sol: nat

    constructor ()
      ensures nodes == 0 && pruned == 0 && sol == 0
    {
      nodes, pruned, sol := 0, 0, 0;
    }
  }

  /** The partial schedule list that the search appends to and pops from. */
  class AssignList {
    var items: seq<Assign>

    constructor ()
      ensures items == []
    {
      items := [];
    }

    method Append(a: Assign)
      modifies this
      ensures items == old(items) + [a]
    {
      items := items + [a];
    }

    method Pop() returns (a: Assign)
      requires items != []
      modifies this
      ensures a == old(items)[|old(items)| - 1]
      ensures items == old(items)[..|old(items)| - 1]
    {
      a := items[|items| - 1];
      items := items[..|items| - 1];
    }
  }

  /** A candidate returned by `avail_ops`: a job and its next operation. */
  datatype Candidate = Candidate(job: Job, op: Op)

  /** A candidate with its remaining processing time, before sorting. */
  datatype Ranked = Ranked(job: Job, op: Op, rem: nat)

  function SumDur(ops: seq<Op>): nat
  {
    if ops == [] then 0 else ops[0].dur + SumDur(ops[1..])
  }

  /** `sum(o.dur for o in ops[prog:])`: the job's remaining processing time. */
  function Rem(job: Job, prog: nat): (r: nat)
    ensures job.Complete(prog) ==> r == 0
    ensures !job.Complete(prog) ==> r >= job.ops[prog].dur
  {
    if prog < |job.ops| then SumDur(job.ops[prog..]) else 0
  }

  /** The remaining time of an incomplete job is its next operation's
      duration plus the remaining time after it. */
  lemma RemStep(job: Job, prog: nat)
    requires !job.Complete(prog)
    ensures Rem(job, prog) == job.ops[prog].dur + Rem(job, prog + 1)
  {
    assert job.ops[prog..][1..] == job.ops[prog + 1..];
  }

  /** The LRPT order: more remaining work first, then the larger job id first. */
  predicate Above(x: Ranked, y: Ranked)
  {
    x.rem > y.rem || (x.rem == y.rem && x.job.id > y.job.id)
  }

  predicate StrictlyRanked(s: seq<Ranked>)
  {
    forall a, b :: 0 <= a < b < |s| ==> Above(s[a], s[b])
  }

  predicate DistinctIds(s: seq<Ranked>)
  {
    forall a, b :: 0 <= a < b < |s| ==> s[a].job.id != s[b].job.id
  }

  function InsertRanked(x: Ranked, s: seq<Ranked>): (r: seq<Ranked>)
    requires StrictlyRanked(s)
    requires forall k :: 0 <= k < |s| ==> s[k].job.id != x.job.id
    ensures forall y :: y in r <==> y == x || y in s
    ensures StrictlyRanked(r)
  {
    if s == [] then [x]
    else if Above(x, s[0]) then [x] + s
    else
      var r' := InsertRanked(x, s[1..]);
      assert s == [s[0]] + s[1..];
      assert forall k :: 0 <= k < |r'| ==> Above(s[0], r'[k]) by {
        forall k | 0 <= k < |r'| ensures Above(s[0], r'[k]) {
          assert r'[k] in r';
          if r'[k] != x {
            var b :| 0 <= b < |s[1..]| && s[1..][b] == r'[k];
            assert s[b + 1] == r'[k];
          }
        }
      }
      [s[0]] + r'
  }

  /** `candidates.sort(key=lambda x: (x[2], x[0].id), reverse=True)`: with
      distinct job ids the order is strict, so stability plays no part. */
  function SortByRank(s: seq<Ranked>): (r: seq<Ranked>)
    requires DistinctIds(s)
    ensures forall y :: y in r <==> y in s
    ensures StrictlyRanked(r)
  {
    if s == [] then []
    else
      var r' := SortByRank(s[1..]);
      assert forall k :: 0 <= k < |r'| ==> r'[k].job.id != s[0].job.id by {
        forall k | 0 <= k < |r'| ensures r'[k].job.id != s[0].job.id {
          assert r'[k] in r';
          var b :| 0 <= b < |s[1..]| && s[1..][b] == r'[k];
          assert s[b + 1] == r'[k];
        }
      }
      assert s == [s[0]] + s[1..];
      InsertRanked(s[0], r')
  }

  /** `candidate` outranks `other` in the LRPT order for progress `prog`. */
  predicate Outranks(candidate: Candidate, other: Candidate, prog: seq<nat>)
  {
    && candidate.job.id < |prog| && other.job.id < |prog|
    && var r1, r2 := Rem(candidate.job, prog[candidate.job.id]), Rem(other.job, prog[other.job.id]);
       r1 > r2 || (r1 == r2 && candidate.job.id > other.job.id)
  }

  /** `job` is the job with its id in `jobs`, it is incomplete, and `op` is its
      next operation. */
  ghost predicate IsNextOf(jobs: seq<Job>, prog: seq<nat>, job: Job, op: Op)
  {
    && job.id < |jobs| && job.id < |prog| && job == jobs[job.id]
    && !job.Complete(prog[job.id]) && op == job.ops[prog[job.id]]
  }

  /** The candidates' list with the remaining times dropped: `[(j, o) for j, o, _ in candidates]`. */
  function Strip(s: seq<Ranked>): (r: seq<Candidate>)
    ensures |r| == |s|
    ensures forall k :: 0 <= k < |s| ==> r[k] == Candidate(s[k].job, s[k].op)
  {
    if s == [] then [] else [Candidate(s[0].job, s[0].op)] + Strip(s[1..])
  }

  /** Sorting and stripping a full, correct candidate list yields every
      dispatchable (job, operation) pair once, LRPT first. */
  lemma SortedCandidates(jobs: seq<Job>, prog: seq<nat>, candidates: seq<Ranked>)
    requires |prog| == |jobs|
    requires forall k :: 0 <= k < |candidates| ==>
      IsNextOf(jobs, prog, candidates[k].job, candidates[k].op)
      && candidates[k].rem == Rem(candidates[k].job, prog[candidates[k].job.id])
    requires forall j :: 0 <= j < |jobs| && !jobs[j].Complete(prog[j]) ==>
      Ranked(jobs[j], jobs[j].ops[prog[j]], Rem(jobs[j], prog[j])) in candidates
    requires DistinctIds(candidates)
    ensures var cands := Strip(SortByRank(candidates));
      && (forall k :: 0 <= k < |cands| ==> IsNextOf(jobs, prog, cands[k].job, cands[k].op))
      && (forall j :: 0 <= j < |jobs| && !jobs[j].Complete(prog[j]) ==>
            Candidate(jobs[j], jobs[j].ops[prog[j]]) in cands)
      && (forall a, b :: 0 <= a < b < |cands| ==> Outranks(cands[a], cands[b], prog))
  {
    var sorted := SortByRank(candidates);
    var cands := Strip(sorted);
    forall k | 0 <= k < |sorted|
      ensures IsNextOf(jobs, prog, sorted[k].job, sorted[k].op)
      ensures sorted[k].rem == Rem(sorted[k].job, prog[sorted[k].job.id])
    {
      assert sorted[k] in sorted;
      var c :| 0 <= c < |candidates| && candidates[c] == sorted[k];
    }
    forall j | 0 <= j < |jobs| && !jobs[j].Complete(prog[j])
      ensures Candidate(jobs[j], jobs[j].ops[prog[j]]) in cands
    {
      var k :| 0 <= k < |sorted| && sorted[k] == Ranked(jobs[j], jobs[j].ops[prog[j]], Rem(jobs[j], prog[j]));
      assert cands[k] == Candidate(jobs[j], jobs[j].ops[prog[j]]);
    }
    forall a, b | 0 <= a < b < |cands|
      ensures Outranks(cands[a], cands[b], prog)
    {
      assert Above(sorted[a], sorted[b]);
    }
  }

  /** The search's record of its best solution: a complete schedule reached
      from the all-zero state by `order`, with `ms` its makespan; without one,
      `ms` is the sentinel. */
  ghost predicate Recorded(machines: nat, jobs: seq<Job>, best: Option<seq<Assign>>, ms: nat, order: seq<nat>)
  {
    && ms <= Sentinel
    && (best.None? ==> ms == Sentinel)
    && (best.Some? ==>
          && WellFormed(machines, jobs)
          && Completes(jobs, Initial(machines, |jobs|), order)
          && best.value == Dispatch(jobs, Initial(machines, |jobs|), order).1
          && ms == Makespan(jobs, Initial(machines, |jobs|), order))
  }

  /** `path` dispatched from the all-zero state reaches `st` with the
      assignments `items`: the search's arrays and partial schedule always
      describe the job sequence that led to them. */
  ghost predicate Reached(machines: nat, jobs: seq<Job>, path: seq<nat>, st: State, items: seq<Assign>)
  {
    && WellFormed(machines, jobs)
    && CanDispatch(jobs, Initial(machines, |jobs|), path)
    && Dispatch(jobs, Initial(machines, |jobs|), path) == (st, items)
  }

  /** A reached state is a well-formed state. */
  lemma ReachedFits(machines: nat, jobs: seq<Job>, path: seq<nat>, st: State, items: seq<Assign>)
    requires Reached(machines, jobs, path, st, items)
    ensures Fits(jobs, st)
  {
  }

  /** Taking one more step from a reached state reaches the placed state. */
  lemma ReachedStep(machines: nat, jobs: seq<Job>, path: seq<nat>, st: State, items: seq<Assign>, j: nat)
    requires Reached(machines, jobs, path, st, items) && Fits(jobs, st)
    requires j < |jobs| && !jobs[j].Complete(st.prog[j])
    ensures Reached(machines, jobs, path + [j], Place(jobs, st, j).0, items + [Place(jobs, st, j).1])
  {
    DispatchAppend(jobs, Initial(machines, |jobs|), path, j);
  }

  class Scheduler {
    const machines: nat
    const jobs: seq<Job>
    var best: Option<seq<Assign>>
    var bestMs: nat
    const tracker: Tracker
    /** The job sequence that produced `best`. */
    ghost var bestOrder: seq<nat>

    /** `best` is a complete schedule reached from the all-zero state, and
        `best_ms` its makespan; without one, `best_ms` is the sentinel. */
    ghost predicate Valid()
      reads this
    {
      Recorded(machines, jobs, best, bestMs, bestOrder)
    }

    constructor (machines: nat, jobs: seq<Job>)
      ensures this.machines == machines && this.jobs == jobs
      ensures best == None && bestMs == Sentinel && Valid()
      ensures fresh(tracker) && tracker.nodes == 0 && tracker.pruned == 0 && tracker.sol == 0
    {
      this.machines := machines;
      this.jobs := jobs;
      best := None;
      bestMs := Sentinel;
      tracker := new Tracker();
    }

    /** The dispatchable candidates, one per incomplete job, LRPT first. */
    method AvailOps(prog: array<nat>) returns (cands: seq<Candidate>)
      requires IdsArePositions(jobs) && prog.Length == |jobs|
      ensures forall k :: 0 <= k < |cands| ==> IsNextOf(jobs, prog[..], cands[k].job, cands[k].op)
      ensures forall j :: 0 <= j < |jobs| && !jobs[j].Complete(prog[j]) ==>
        Candidate(jobs[j], jobs[j].ops[prog[j]]) in cands
      ensures forall a, b :: 0 <= a < b < |cands| ==> Outranks(cands[a], cands[b], prog[..])
    {
      var candidates := RankCandidates(prog);
      SortedCandidates(jobs, prog[..], candidates);
      cands := Strip(SortByRank(candidates));
    }

    /** The scan over the jobs in job order: every incomplete job contributes
        its next operation with its remaining processing time. */
    method RankCandidates(prog: array<nat>) returns (candidates: seq<Ranked>)
      requires IdsArePositions(jobs) && prog.Length == |jobs|
      ensures forall k :: 0 <= k < |candidates| ==>
        IsNextOf(jobs, prog[..], candidates[k].job, candidates[k].op)
        && candidates[k].rem == Rem(candidates[k].job, prog[candidates[k].job.id])
      ensures forall j :: 0 <= j < |jobs| && !jobs[j].Complete(prog[j]) ==>
        Ranked(jobs[j], jobs[j].ops[prog[j]], Rem(jobs[j], prog[j])) in candidates
      ensures forall a, b :: 0 <= a < b < |candidates| ==> candidates[a].job.id < candidates[b].job.id
    {
      candidates := [];
      for i := 0 to |jobs|
        invariant forall k :: 0 <= k < |candidates| ==>
          IsNextOf(jobs, prog[..], candidates[k].job, candidates[k].op)
          && candidates[k].job.id < i
          && candidates[k].rem == Rem(candidates[k].job, prog[candidates[k].job.id])
        invariant forall j :: 0 <= j < i && !jobs[j].Complete(prog[j]) ==>
          Ranked(jobs[j], jobs[j].ops[prog[j]], Rem(jobs[j], prog[j])) in candidates
        invariant forall a, b :: 0 <= a < b < |candidates| ==> candidates[a].job.id < candidates[b].job.id
      {
        var job := jobs[i];
        if !job.Complete(prog[job.id]) {
          var op := job.NextOp(prog[job.id]);
          if op.Some? {
            var rem := SumDur(job.ops[prog[job.id]..]);
            candidates := candidates + [Ranked(job, op.value, rem)];
          }
        }
      }
    }

    /** One node of the search: count it, then record a complete schedule or
        expand the node, leaving every structure as it was. On return no
        completion of the current partial schedule beats `best_ms`. */
    method Backtrack(sched: AssignList, prog: array<nat>, timeline: array<nat>, jobLastEnd: array<nat>,
                     ghost path: seq<nat>)
      requires Valid() && WellFormed(machines, jobs)
      requires prog != timeline && prog != jobLastEnd && timeline != jobLastEnd
      requires timeline.Length == machines && prog.Length == |jobs| && jobLastEnd.Length == |jobs|
      requires Reached(machines, jobs, path, State(timeline[..], jobLastEnd[..], prog[..]), sched.items)
      modifies this, tracker, sched, prog, timeline, jobLastEnd
      ensures Valid()
      ensures sched.items == old(sched.items) && prog[..] == old(prog[..])
      ensures timeline[..] == old(timeline[..]) && jobLastEnd[..] == old(jobLastEnd[..])
      ensures bestMs <= old(bestMs)
      ensures LowerBound(jobs, State(timeline[..], jobLastEnd[..], prog[..]), bestMs)
      ensures tracker.nodes > old(tracker.nodes) && tracker.pruned >= old(tracker.pruned)
      ensures tracker.sol >= old(tracker.sol)
      decreases Remaining(jobs, prog[..]), 3
    {
      tracker.nodes := tracker.nodes + 1;
      if AllComplete(jobs, prog[..]) {
        Record(sched, timeline, jobLastEnd, prog, path);
      } else {
        Expand(sched, prog, timeline, jobLastEnd, path, State(timeline[..], jobLastEnd[..], prog[..]), sched.items);
      }
    }

    /** The leaf: every job is complete, so the partial schedule is a solution;
        count it and keep it when its makespan beats `best_ms`. */
    method Record(sched: AssignList, timeline: array<nat>, jobLastEnd: array<nat>, prog: array<nat>,
                  ghost path: seq<nat>)
      requires Valid() && WellFormed(machines, jobs)
      requires prog != timeline && prog != jobLastEnd && timeline != jobLastEnd
      requires timeline.Length == machines && prog.Length == |jobs| && jobLastEnd.Length == |jobs|
      requires Reached(machines, jobs, path, State(timeline[..], jobLastEnd[..], prog[..]), sched.items)
      requires AllComplete(jobs, prog[..])
      modifies this, tracker
      ensures Valid()
      ensures bestMs <= old(bestMs)
      ensures LowerBound(jobs, State(timeline[..], jobLastEnd[..], prog[..]), bestMs)
      ensures bestMs == if MaxOf(timeline[..]) < old(bestMs) then MaxOf(timeline[..]) else old(bestMs)
      ensures tracker.nodes == old(tracker.nodes) && tracker.pruned == old(tracker.pruned)
      ensures tracker.sol == old(tracker.sol) + 1
      ensures (best, bestOrder) == if MaxOf(timeline[..]) < old(bestMs) then (Some(sched.items), path)
                                   else (old(best), old(bestOrder))
    {
      var ms := MaxOf(timeline[..]);
      tracker.sol := tracker.sol + 1;
      TimersBoundMakespan(jobs, State(timeline[..], jobLastEnd[..], prog[..]));
      if ms < bestMs {
        bestMs := ms;
        best := Some(sched.items);
        bestOrder := path;
      }
    }

    /** An inner node: try each candidate, LRPT first, and undo after each. */
    method Expand(sched: AssignList, prog: array<nat>, timeline: array<nat>, jobLastEnd: array<nat>,
                  ghost path: seq<nat>, ghost cur: State, ghost items: seq<Assign>)
      requires Valid() && WellFormed(machines, jobs)
      requires prog != timeline && prog != jobLastEnd && timeline != jobLastEnd
      requires timeline.Length == machines && prog.Length == |jobs| && jobLastEnd.Length == |jobs|
      requires State(timeline[..], jobLastEnd[..], prog[..]) == cur && sched.items == items
      requires Reached(machines, jobs, path, cur, items) && !AllComplete(jobs, cur.prog)
      modifies this, tracker, sched, prog, timeline, jobLastEnd
      ensures Valid()
      ensures State(timeline[..], jobLastEnd[..], prog[..]) == cur && sched.items == items
      ensures bestMs <= old(bestMs)
      ensures LowerBound(jobs, cur, bestMs)
      ensures tracker.nodes >= old(tracker.nodes) && tracker.pruned >= old(tracker.pruned)
      ensures tracker.sol >= old(tracker.sol)
      decreases Remaining(jobs, cur.prog), 2
    {
      var ops := AvailOps(prog);
      if ops == [] {
        // Without dependencies an incomplete job always offers its next
        // operation, so the dead-end branch (count a pruned node, return)
        // cannot be reached.
        assert false;
      }

      TryAll(sched, prog, timeline, jobLastEnd, path, cur, items, ops);
      TriedEveryCandidate(jobs, cur, ops, bestMs);
    }

    /** The loop over the ranked candidates: each is tried in turn, and the
        bound after each try is at most the best makespan found so far. */
    method TryAll(sched: AssignList, prog: array<nat>, timeline: array<nat>, jobLastEnd: array<nat>,
                  ghost path: seq<nat>, ghost cur: State, ghost items: seq<Assign>, ops: seq<Candidate>)
      requires Valid() && WellFormed(machines, jobs)
      requires prog != timeline && prog != jobLastEnd && timeline != jobLastEnd
      requires timeline.Length == machines && prog.Length == |jobs| && jobLastEnd.Length == |jobs|
      requires State(timeline[..], jobLastEnd[..], prog[..]) == cur && sched.items == items
      requires Reached(machines, jobs, path, cur, items)
      requires forall k :: 0 <= k < |ops| ==> IsNextOf(jobs, cur.prog, ops[k].job, ops[k].op)
      modifies this, tracker, sched, prog, timeline, jobLastEnd
      ensures Valid()
      ensures State(timeline[..], jobLastEnd[..], prog[..]) == cur && sched.items == items
      ensures bestMs <= old(bestMs)
      ensures BoundAfterEach(jobs, cur, ops, bestMs)
      ensures tracker.nodes >= old(tracker.nodes) && tracker.pruned >= old(tracker.pruned)
      ensures tracker.sol >= old(tracker.sol)
      decreases Remaining(jobs, cur.prog), 1
    {
      var i := 0;
      while i < |ops|
        invariant 0 <= i <= |ops|
        invariant Valid()
        invariant State(timeline[..], jobLastEnd[..], prog[..]) == cur && sched.items == items
        invariant bestMs <= old(bestMs)
        invariant BoundAfterEach(jobs, cur, ops[..i], bestMs)
        invariant tracker.nodes >= old(tracker.nodes) && tracker.pruned >= old(tracker.pruned)
        invariant tracker.sol >= old(tracker.sol)
      {
        ghost var before := bestMs;
        Branch(sched, prog, timeline, jobLastEnd, path, cur, items, ops[i]);
        BoundAfterEachExtend(jobs, cur, ops, i, before, bestMs);
        i := i + 1;
      }
      assert ops[..|ops|] == ops;
    }

    /** One iteration of the candidate loop: place the candidate, recurse while
        the partial makespan is below the bound (otherwise count a pruned
        branch), then undo the placement. */
    method Branch(sched: AssignList, prog: array<nat>, timeline: array<nat>, jobLastEnd: array<nat>,
                  ghost path: seq<nat>, ghost cur: State, ghost items: seq<Assign>, c: Candidate)
      requires Valid() && WellFormed(machines, jobs)
      requires prog != timeline && prog != jobLastEnd && timeline != jobLastEnd
      requires timeline.Length == machines && prog.Length == |jobs| && jobLastEnd.Length == |jobs|
      requires State(timeline[..], jobLastEnd[..], prog[..]) == cur && sched.items == items
      requires Reached(machines, jobs, path, cur, items)
      requires IsNextOf(jobs, cur.prog, c.job, c.op)
      modifies this, tracker, sched, prog, timeline, jobLastEnd
      ensures Valid()
      ensures State(timeline[..], jobLastEnd[..], prog[..]) == cur && sched.items == items
      ensures bestMs <= old(bestMs)
      ensures LowerBound(jobs, Place(jobs, cur, c.job.id).0, bestMs)
      ensures tracker.nodes >= old(tracker.nodes) && tracker.pruned >= old(tracker.pruned)
      ensures tracker.sol >= old(tracker.sol)
      ensures MaxOf(Place(jobs, cur, c.job.id).0.timeline) < old(bestMs) ==> tracker.nodes > old(tracker.nodes)
      ensures MaxOf(Place(jobs, cur, c.job.id).0.timeline) >= old(bestMs) ==>
        && tracker.pruned == old(tracker.pruned) + 1 && tracker.nodes == old(tracker.nodes)
        && tracker.sol == old(tracker.sol) && bestMs == old(bestMs) && best == old(best)
      decreases Remaining(jobs, cur.prog), 0
    {
      ghost var next := Place(jobs, cur, c.job.id).0;
      ReachedFits(machines, jobs, path, cur, items);
      ReachedStep(machines, jobs, path, cur, items, c.job.id);
      RemainingStep(jobs, cur.prog, c.job.id);
      var oldT, oldJ := Advance(sched, prog, timeline, jobLastEnd, c, cur);

      if MaxOf(timeline[..]) < bestMs {
        Backtrack(sched, prog, timeline, jobLastEnd, path + [c.job.id]);
      } else {
        tracker.pruned := tracker.pruned + 1;
        PrunedBound(jobs, next, bestMs);
      }

      Retreat(sched, prog, timeline, jobLastEnd, c, oldT, oldJ, cur);
    }

    /** The placement half of the loop body: compute start and end, append the
        assignment, move both timers to its end and advance the job. Returns the
        two timer values the undo restores. */
    method Advance(sched: AssignList, prog: array<nat>, timeline: array<nat>, jobLastEnd: array<nat>,
                   c: Candidate, ghost before: State) returns (oldT: nat, oldJ: nat)
      requires prog != timeline && prog != jobLastEnd && timeline != jobLastEnd
      requires Fits(jobs, before) && IsNextOf(jobs, before.prog, c.job, c.op)
      requires State(timeline[..], jobLastEnd[..], prog[..]) == before
      modifies sched, prog, timeline, jobLastEnd
      ensures State(timeline[..], jobLastEnd[..], prog[..]) == Place(jobs, before, c.job.id).0
      ensures sched.items == old(sched.items) + [Place(jobs, before, c.job.id).1]
      ensures oldT == before.timeline[c.op.mach] && oldJ == before.jobEnd[c.job.id]
    {
      var job, op := c.job, c.op;
      var m := op.mach;
      var start := Max(timeline[m], jobLastEnd[job.id]);
      var end := start + op.dur;

      sched.Append(Assign(job.id, op.id, m, start, end));

      oldT := timeline[m];
      oldJ := jobLastEnd[job.id];

      timeline[m] := end;
      jobLastEnd[job.id] := end;
      prog[job.id] := prog[job.id] + 1;
    }

    /** The undo half of the loop body: pop the assignment, restore both timers
        and step the job's progress back, which returns the arrays to the state
        `before` the candidate was placed. */
    method Retreat(sched: AssignList, prog: array<nat>, timeline: array<nat>, jobLastEnd: array<nat>,
                   c: Candidate, oldT: nat, oldJ: nat, ghost before: State)
      requires prog != timeline && prog != jobLastEnd && timeline != jobLastEnd
      requires sched.items != []
      requires Fits(jobs, before) && IsNextOf(jobs, before.prog, c.job, c.op)
      requires oldT == before.timeline[c.op.mach] && oldJ == before.jobEnd[c.job.id]
      requires Place(jobs, before, c.job.id).0 == State(timeline[..], jobLastEnd[..], prog[..])
      modifies sched, prog, timeline, jobLastEnd
      ensures sched.items == old(sched.items)[..|old(sched.items)| - 1]
      ensures State(timeline[..], jobLastEnd[..], prog[..]) == before
    {
      var _ := sched.Pop();
      timeline[c.op.mach] := oldT;
      jobLastEnd[c.job.id] := oldJ;
      prog[c.job.id] := prog[c.job.id] - 1;
      UndoUpdate(before.timeline, c.op.mach, old(timeline[c.op.mach]));
      UndoUpdate(before.jobEnd, c.job.id, old(jobLastEnd[c.job.id]));
      UndoUpdate(before.prog, c.job.id, old(prog[c.job.id]));
    }

    /** Search from the all-zero state. On return `best_ms` is the least makespan
        over every complete dispatch order (or the sentinel, if none is below
        it), and `best` is a schedule that reaches it. */
    method Solve() returns (result: Option<seq<Assign>>, makespan: nat)
      requires Valid() && WellFormed(machines, jobs)
      modifies this, tracker
      ensures Valid()
      ensures result == best && makespan == bestMs
      ensures bestMs <= old(bestMs)
      ensures LowerBound(jobs, Initial(machines, |jobs|), makespan)
      ensures result.Some? ==>
        && Completes(jobs, Initial(machines, |jobs|), bestOrder)
        && result.value == Dispatch(jobs, Initial(machines, |jobs|), bestOrder).1
        && makespan == Makespan(jobs, Initial(machines, |jobs|), bestOrder)
      ensures result.None? ==> makespan == Sentinel
      ensures tracker.nodes > old(tracker.nodes)
    {
      var prog := new nat[|jobs|](_ => 0);
      var timeline := new nat[machines](_ => 0);
      var jobLastEnd := new nat[|jobs|](_ => 0);
      var sched := new AssignList();
      assert State(timeline[..], jobLastEnd[..], prog[..]) == Initial(machines, |jobs|);
      Backtrack(sched, prog, timeline, jobLastEnd, []);
      result, makespan := best, bestMs;
    }
  }
}

=== FILE: cultural_operators.dfy ===
/** The cultural algorithm's genetic operators on job-id chromosomes:
    binary-tournament selection, an order-style crossover that keeps a slice
    of the first parent and fills the rest from the second, and a
    belief-guided mutation that swaps two positions. Every random draw is a
    parameter. */
module CulturalOperators {
  import opened Options

  // ---------------------------------------------------------------- selection

  /** Binary tournament: of the two drawn individuals the one with the strictly
      smaller fitness wins, and a tie goes to the second draw. */
  function Selection(population: seq<seq<int>>, fitnessScores: seq<int>, idx1: nat, idx2: nat): (winner: seq<int>)
    requires idx1 < |population| && idx2 < |population|
    requires idx1 < |fitnessScores| && idx2 < |fitnessScores|
    ensures winner in population
    ensures || (winner == population[idx1] && fitnessScores[idx1] < fitnessScores[idx2])
            || (winner == population[idx2] && fitnessScores[idx2] <= fitnessScores[idx1])
  {
    if fitnessScores[idx1] < fitnessScores[idx2] then population[idx1] else population[idx2]
  }

  /** The winner is never worse than either contestant: it is the drawn
      individual of least fitness, the second one when both are equal. */
  lemma SelectionPicksFitter(population: seq<seq<int>>, fitnessScores: seq<int>, idx1: nat, idx2: nat)
    requires idx1 < |population| && idx2 < |population|
    requires idx1 < |fitnessScores| && idx2 < |fitnessScores|
    ensures exists k :: ((k == idx1 || k == idx2)
                         && Selection(population, fitnessScores, idx1, idx2) == population[k]
                         && fitnessScores[k] <= fitnessScores[idx1] && fitnessScores[k] <= fitnessScores[idx2])
  {
    if fitnessScores[idx1] < fitnessScores[idx2] {
      assert population[idx1] == Selection(population, fitnessScores, idx1, idx2);
    } else {
      assert population[idx2] == Selection(population, fitnessScores, idx1, idx2);
    }
  }

  // ---------------------------------------------------------------- crossover

  /** Parent 2 in order, with the first `counts[v]` occurrences of every value
      `v` removed: the genes still missing from the child. */
  function Leftover(p2: seq<int>, counts: multiset<int>): (r: seq<int>)
    ensures |r| <= |p2|
    ensures forall x :: x in r ==> x in p2
  {
    if p2 == [] then []
    else if counts[p2[0]] > 0 then Leftover(p2[1..], counts[p2[0] := counts[p2[0]] - 1])
    else [p2[0]] + Leftover(p2[1..], counts)
  }

  /** The leftover genes are parent 2's genes minus the counted ones. */
  lemma {:induction false} LeftoverMultiset(p2: seq<int>, counts: multiset<int>)
    ensures multiset(Leftover(p2, counts)) == multiset(p2) - counts
  {
    if p2 != [] {
      var x := p2[0];
      assert p2 == [x] + p2[1..];
      if counts[x] > 0 {
        LeftoverMultiset(p2[1..], counts[x := counts[x] - 1]);
      } else {
        LeftoverMultiset(p2[1..], counts);
      }
    }
  }

  /** The child position that the fill loop gives the `f`-th leftover gene:
      positions before the slice first, then those after it. */
  function FillIndex(k: nat, start: nat, end: nat): nat
    requires start <= end && (k < start || end <= k)
  {
    if k < start then k else k - (end - start)
  }

  /** The child for the slice `[start, end)` of parent 1 and the genes
      `left` still to place: the slice comes from parent 1, and the other
      positions, read before the slice and then after it, take `left` in
      order, `None` where it runs out. With more genes than free positions the
      fill loop runs off the end of the child. */
  function Filled(p1: seq<int>, left: seq<int>, start: nat, end: nat): (r: Outcome<seq<Option<int>>>)
    requires start < end <= |p1|
    ensures r.Raised? <==> |left| > |p1| - (end - start)
    ensures r.Raised? ==> r.error == IndexError
    ensures r.Ok? ==> |r.value| == |p1| && forall k :: start <= k < end ==> r.value[k] == Some(p1[k])
    ensures r.Ok? && |left| == |p1| - (end - start) ==> forall k :: 0 <= k < |p1| ==> r.value[k].Some?
  {
    if |left| > |p1| - (end - start) then Raised(IndexError)
    else Ok(seq(|p1|, k requires 0 <= k < |p1| =>
      if start <= k < end then Some(p1[k])
      else if FillIndex(k, start, end) < |left| then Some(left[FillIndex(k, start, end)])
      else None))
  }

  /** The child crossover builds from the slice `[start, end)` of parent 1
      and parent 2's leftover genes. */
  function Child(p1: seq<int>, p2: seq<int>, start: nat, end: nat): (r: Outcome<seq<Option<int>>>)
    requires start < end <= |p1|
    ensures r.Ok? ==> |r.value| == |p1| && forall k :: start <= k < end ==> r.value[k] == Some(p1[k])
    ensures r.Ok? ==> forall k :: 0 <= k < |p1| && r.value[k].Some? ==> r.value[k].value in p1 + p2
  {
    Filled(p1, Leftover(p2, multiset(p1[start..end])), start, end)
  }

  /** crossover with `draw1`, `draw2` the two distinct values of
      `random.sample(range(size), 2)`, which raises `ValueError` when parent 1
      has fewer than two genes. The parents are values and are left unchanged;
      the child keeps parent 1's slice between the sorted draws. */
  method Crossover(parent1: seq<int>, parent2: seq<int>, draw1: nat, draw2: nat) returns (r: Outcome<seq<Option<int>>>)
    requires |parent1| >= 2 ==> draw1 < |parent1| && draw2 < |parent1| && draw1 != draw2
    ensures |parent1| < 2 ==> r == Raised(ValueError)
    ensures |parent1| >= 2 ==>
      var start, end := if draw1 < draw2 then draw1 else draw2, if draw1 < draw2 then draw2 else draw1;
      r == Child(parent1, parent2, start, end)
    ensures r.Ok? ==> (&& |r.value| == |parent1|
                       && forall k :: (draw1 <= k < draw2 || draw2 <= k < draw1) ==> r.value[k] == Some(parent1[k]))
  {
    if |parent1| < 2 {
      return Raised(ValueError);
    }
    var size := |parent1|;
    var start, end := if draw1 < draw2 then draw1 else draw2, if draw1 < draw2 then draw2 else draw1;
    var child := new Option<int>[size](_ => None);
    var chunk := parent1[start..end];
    forall k | start <= k < end {
      child[k] := Some(chunk[k - start]);
    }

    var items := LeftoverItems(parent2, chunk);
    r := FillGaps(child, parent1, items, start, end);
  }

  /** Step 5 of crossover: walk parent 2 with a counter of the slice's genes,
      skipping a gene while its count is positive (and counting it down), and
      collecting every other gene in order. */
  method LeftoverItems(parent2: seq<int>, chunk: seq<int>) returns (items: seq<int>)
    ensures items == Leftover(parent2, multiset(chunk))
  {
    // Counter(chunk); a Counter entry is "in" and positive exactly when the
    // multiset holds the value.
    var counts := multiset(chunk);
    items := [];
    var i := 0;
    while i < |parent2|
      invariant 0 <= i <= |parent2|
      invariant items + Leftover(parent2[i..], counts) == Leftover(parent2, multiset(chunk))
    {
      var item := parent2[i];
      assert parent2[i..] == [item] + parent2[i + 1..];
      if counts[item] > 0 {
        counts := counts[item := counts[item] - 1];
      } else {
        items := items + [item];
      }
      i := i + 1;
    }
    assert parent2[|parent2|..] == [];
  }

  /** Step 6 of crossover: two pointers fill the empty positions of `child`,
      jumping over the slice `[start, end)`, with `items` in order; running past
      the end of the child raises `IndexError`. */
  method FillGaps(child: array<Option<int>>, ghost parent1: seq<int>, items: seq<int>, start: nat, end: nat)
    returns (r: Outcome<seq<Option<int>>>)
    requires start < end <= child.Length == |parent1|
    requires forall k :: 0 <= k < child.Length ==> child[k] == if start <= k < end then Some(parent1[k]) else None
    modifies child
    ensures r == Filled(parent1, items, start, end)
  {
    var size := child.Length;
    var gap := end - start;
    var childPointer := 0;
    var p2Pointer := 0;
    while p2Pointer < |items|
      invariant 0 <= p2Pointer <= |items| && p2Pointer <= size - gap
      invariant childPointer == if p2Pointer <= start then p2Pointer else p2Pointer + gap
      invariant forall k :: 0 <= k < size ==> (child[k] ==
                                                if start <= k < end then Some(parent1[k])
                                                else if FillIndex(k, start, end) < p2Pointer then Some(items[FillIndex(k, start, end)])
                                                else None)
      decreases |items| - p2Pointer
    {
      if childPointer == start {
        childPointer := end;
      }
      if childPointer == size {
        // child[child_pointer] is past the end of the list
        assert |items| > size - gap;
        return Raised(IndexError);
      }
      if child[childPointer] == None {
        child[childPointer] := Some(items[p2Pointer]);
        p2Pointer := p2Pointer + 1;
      }
      childPointer := childPointer + 1;
    }
    assert child[..] == Filled(parent1, items, start, end).value;
    r := Ok(child[..]);
  }

  /** The genes of a child with no `None` left. */
  function Genes(child: seq<Option<int>>): seq<int>
    requires forall k :: 0 <= k < |child| ==> child[k].Some?
  {
    seq(|child|, k requires 0 <= k < |child| => child[k].value)
  }

  /** When both parents hold the same multiset of job ids, crossover never
      fails, fills every position, and the child holds that same multiset. */
  lemma CrossoverKeepsJobs(p1: seq<int>, p2: seq<int>, start: nat, end: nat)
    requires start < end <= |p1|
    requires multiset(p1) == multiset(p2)
    ensures Child(p1, p2, start, end).Ok?
    ensures forall k :: 0 <= k < |p1| ==> Child(p1, p2, start, end).value[k].Some?
    ensures multiset(Genes(Child(p1, p2, start, end).value)) == multiset(p1)
  {
    var chunk := p1[start..end];
    var left := Leftover(p2, multiset(chunk));
    LeftoverFillsGaps(p1, p2, start, end);
    var genes := Genes(Child(p1, p2, start, end).value);
    assert genes == left[..start] + chunk + left[start..];
    assert left == left[..start] + left[start..];
    assert multiset(genes) == multiset(left) + multiset(chunk);
  }

  /** With equal multisets, the leftover genes number exactly the positions
      outside the slice, and together with the slice they make up parent 1. */
  lemma LeftoverFillsGaps(p1: seq<int>, p2: seq<int>, start: nat, end: nat)
    requires start < end <= |p1|
    requires multiset(p1) == multiset(p2)
    ensures |Leftover(p2, multiset(p1[start..end]))| == |p1| - (end - start)
    ensures multiset(Leftover(p2, multiset(p1[start..end]))) + multiset(p1[start..end]) == multiset(p1)
  {
    var chunk := p1[start..end];
    var left := Leftover(p2, multiset(chunk));
    LeftoverMultiset(p2, multiset(chunk));
    assert multiset(chunk) <= multiset(p1) by {
      assert p1 == p1[..start] + chunk + p1[end..];
    }
    assert multiset(left) + multiset(chunk) == multiset(p1);
    assert |left| == |p1| - (end - start) by {
      assert |multiset(left)| == |left|;
      assert |multiset(left)| + |multiset(chunk)| == |multiset(p1)|;
    }
  }

  // ---------------------------------------------------------------- mutation

  /** The belief space as mutation reads it: the best schedule so far (Python
      `None` when there is none yet) and the optional list of critical jobs. */
  datatype BeliefSpace = BeliefSpace(bestSoFar: Option<seq<int>>, criticalJobs: Option<seq<int>>)

  /** `belief_space.get('critical_jobs', [])`. */
  function CriticalJobs(belief: BeliefSpace): seq<int>
  {
    if belief.criticalJobs.Some? then belief.criticalJobs.value else []
  }

  /** Python truthiness of the best schedule: present and non-empty. */
  predicate HasHistory(belief: BeliefSpace)
  {
    belief.bestSoFar.Some? && belief.bestSoFar.value != []
  }

  /** Python's `list.index`: the first position holding `x`, or `None` where
      Python raises `ValueError` because `x` does not occur. */
  function IndexOf(s: seq<int>, x: int): (r: Option<nat>)
    ensures r.None? <==> x !in s
    ensures r.Some? ==> r.value < |s| && s[r.value] == x && x !in s[..r.value]
  {
    if s == [] then None
    else if s[0] == x then Some(0)
    else
      match IndexOf(s[1..], x)
      case None => None
      case Some(i) => assert s[..i + 1] == [s[0]] + s[1..][..i]; Some(i + 1)
  }

  /** The random outcomes mutation may consume: the cultural coin
      (`random() < 0.3`), the situational pair from `random.sample`, the domain
      index from `randint(1, len - 1)`, the rate coin
      (`random() < mutation_rate`) and the plain-mutation pair. */
  datatype MutationDraws = MutationDraws(
    cultural: bool,
    pick1: nat, pick2: nat,
    idx: nat,
    rate: bool,
    swap1: nat, swap2: nat)

  /** The draws lie in the ranges Python draws them from on a chromosome of
      length `n` (there are none when `n < 2`). */
  predicate DrawsFit(d: MutationDraws, n: nat)
  {
    n >= 2 ==>
      && d.pick1 < n && d.pick2 < n && d.pick1 != d.pick2
      && 1 <= d.idx <= n - 1
      && d.swap1 < n && d.swap2 < n && d.swap1 != d.swap2
  }

  /** The smaller and the larger situational draw, as `sorted` returns them. */
  function Lo(d: MutationDraws): nat { if d.pick1 < d.pick2 then d.pick1 else d.pick2 }
  function Hi(d: MutationDraws): nat { if d.pick1 < d.pick2 then d.pick2 else d.pick1 }

  /** Exchanging positions `i` and `j`. */
  function Swap(s: seq<int>, i: nat, j: nat): (r: seq<int>)
    requires i < |s| && j < |s|
    ensures |r| == |s| && multiset(r) == multiset(s)
    ensures r[i] == s[j] && r[j] == s[i]
    ensures forall k :: 0 <= k < |s| && k != i && k != j ==> r[k] == s[k]
  {
    s[i := s[j]][j := s[i]]
  }

  /** The situational swap applies: there is a history, both drawn jobs occur
      in it, and the later-drawn job comes first there. */
  predicate SituationalFires(c: seq<int>, belief: BeliefSpace, d: MutationDraws)
    requires |c| >= 2 && DrawsFit(d, |c|)
  {
    && HasHistory(belief)
    && var posA, posB := IndexOf(belief.bestSoFar.value, c[Lo(d)]), IndexOf(belief.bestSoFar.value, c[Hi(d)]);
       posA.Some? && posB.Some? && posB.value < posA.value
  }

  /** mutation on a copy of the chromosome. A cultural move needs at least two
      genes (`random.sample` and `randint` raise `ValueError` otherwise); it is
      the situational swap, failing that the domain swap of a critical job with
      its left neighbour, failing that nothing. Otherwise the rate coin decides
      a plain swap of two distinct positions. Every outcome is a permutation. */
  method Mutation(chromosome: seq<int>, belief: BeliefSpace, d: MutationDraws) returns (r: Outcome<seq<int>>)
    requires DrawsFit(d, |chromosome|)
    ensures r.Raised? <==> d.cultural && |chromosome| < 2
    ensures r.Raised? ==> r.error == ValueError
    ensures r.Ok? ==> |r.value| == |chromosome| && multiset(r.value) == multiset(chromosome)
    ensures d.cultural && |chromosome| >= 2 ==>
      r == Ok(if SituationalFires(chromosome, belief, d) then Swap(chromosome, Lo(d), Hi(d))
              else if chromosome[d.idx] in CriticalJobs(belief) then Swap(chromosome, d.idx, d.idx - 1)
              else chromosome)
    ensures !d.cultural ==>
      r == Ok(if d.rate && |chromosome| >= 2 then Swap(chromosome, d.swap1, d.swap2) else chromosome)
  {
    var a := new int[|chromosome|](k requires 0 <= k < |chromosome| => chromosome[k]);
    assert a[..] == chromosome;
    if d.cultural {
      r := CulturalMove(a, chromosome, belief, d);
      return;
    } else if d.rate {
      if a.Length >= 2 {
        a[d.swap1], a[d.swap2] := a[d.swap2], a[d.swap1];
        assert a[..] == Swap(chromosome, d.swap1, d.swap2);
      }
    }
    return Ok(a[..]);
  }

  /** The cultural branch of mutation on the copy `a`: the situational swap,
      failing that the domain swap, failing that no change. */
  method CulturalMove(a: array<int>, ghost c: seq<int>, belief: BeliefSpace, d: MutationDraws) returns (r: Outcome<seq<int>>)
    requires a[..] == c && DrawsFit(d, |c|)
    modifies a
    ensures r.Raised? <==> |c| < 2
    ensures r.Raised? ==> r.error == ValueError
    ensures |c| >= 2 ==>
      r == Ok(if SituationalFires(c, belief, d) then Swap(c, Lo(d), Hi(d))
              else if c[d.idx] in CriticalJobs(belief) then Swap(c, d.idx, d.idx - 1)
              else c)
  {
    if HasHistory(belief) {
      if a.Length < 2 {
        return Raised(ValueError);
      }
      var swapped := SituationalSwap(a, c, belief, d);
      if swapped {
        return Ok(a[..]);
      }
    }
    if a.Length < 2 {
      return Raised(ValueError);
    }
    var swapped := DomainSwap(a, c, belief, d);
    return Ok(a[..]);
  }

  /** The domain step on the copy `a`: the gene at the drawn index moves one
      place to the left when its job is critical. */
  method DomainSwap(a: array<int>, ghost c: seq<int>, belief: BeliefSpace, d: MutationDraws) returns (swapped: bool)
    requires a[..] == c && |c| >= 2 && DrawsFit(d, |c|)
    modifies a
    ensures swapped == (c[d.idx] in CriticalJobs(belief))
    ensures a[..] == if swapped then Swap(c, d.idx, d.idx - 1) else c
  {
    var idx := d.idx;
    var jobId := a[idx];
    swapped := jobId in CriticalJobs(belief);
    if swapped {
      a[idx], a[idx - 1] := a[idx - 1], a[idx];
      assert a[..] == Swap(c, idx, idx - 1);
    }
  }

  /** The situational step on the copy `a`, given a history: look both drawn
      jobs up in the best schedule (a missing one raises `ValueError`, which is
      caught) and swap them when the best schedule has them the other way
      round. */
  method SituationalSwap(a: array<int>, ghost c: seq<int>, belief: BeliefSpace, d: MutationDraws) returns (swapped: bool)
    requires a[..] == c && |c| >= 2 && DrawsFit(d, |c|) && HasHistory(belief)
    modifies a
    ensures swapped == SituationalFires(c, belief, d)
    ensures a[..] == if swapped then Swap(c, Lo(d), Hi(d)) else c
  {
    var idx1, idx2 := Lo(d), Hi(d);
    var jobA, jobB := a[idx1], a[idx2];
    var best := belief.bestSoFar.value;
    var posA := IndexOf(best, jobA);
    var posB := IndexOf(best, jobB);
    swapped := posA.Some? && posB.Some? && posB.value < posA.value;
    if swapped {
      a[idx1], a[idx2] := jobB, jobA;
      assert a[..] == Swap(c, idx1, idx2);
    }
  }

  /** After a situational swap the two drawn positions follow the best
      schedule: the job now earlier in the chromosome is also the one that
      comes first there. */
  lemma SituationalFollowsLeader(c: seq<int>, belief: BeliefSpace, d: MutationDraws)
    requires |c| >= 2 && DrawsFit(d, |c|)
    requires SituationalFires(c, belief, d)
    ensures var r, best := Swap(c, Lo(d), Hi(d)), belief.bestSoFar.value;
      && Lo(d) < Hi(d)
      && IndexOf(best, r[Lo(d)]).Some? && IndexOf(best, r[Hi(d)]).Some?
      && IndexOf(best, r[Lo(d)]).value < IndexOf(best, r[Hi(d)]).value
  {
  }

}

=== FILE: cultural_schedule.dfy ===
/** The cultural algorithm's chromosome and its simulation engine. A
    chromosome is a sequence of job ids in which job `j` occurs once per
    operation; reading it left to right, the k-th occurrence of `j` stands for
    `j`'s k-th operation, which starts once both its machine and its job are
    free. */
module CulturalSchedule {
  import opened Lists

  /** One operation of a job: the machine it needs and how long it takes. */
  datatype Operation = Operation(machine: int, duration: int)

  /** The running state of the simulation: per-machine free times, per-job
      free times, and how many operations of each job have been replayed. */
  datatype Timers = Timers(machine: seq<int>, job: seq<int>, count: seq<nat>)

  /** The chromosome before shuffling: job 0's id once per operation, then
      job 1's, and so on. */
  function Layout(jobs: seq<seq<Operation>>): (r: seq<int>)
    ensures |r| == TotalOps(jobs)
    ensures forall k :: 0 <= k < |r| ==> 0 <= r[k] < |jobs|
  {
    if jobs == [] then []
    else Layout(jobs[..|jobs| - 1]) + Repeat(|jobs| - 1, |jobs[|jobs| - 1]|)
  }

  /** `n` copies of `v`, as Python's `[v] * n`. */
  function Repeat(v: int, n: nat): seq<int>
  {
    seq(n, _ => v)
  }

  /** The number of operations over all jobs (the chromosome length);
      `BranchAndBound.OpCount` counts the same over the solver's job records. */
  function TotalOps(jobs: seq<seq<Operation>>): nat
  {
    if jobs == [] then 0 else TotalOps(jobs[..|jobs| - 1]) + |jobs[|jobs| - 1]|
  }

  /** `n` copies of `v` hold `v` exactly `n` times. */
  lemma {:induction false} RepeatCount(v: int, n: nat)
    ensures multiset(Repeat(v, n))[v] == n
    ensures forall x :: x != v ==> multiset(Repeat(v, n))[x] == 0
  {
    if n > 0 {
      RepeatCount(v, n - 1);
      assert Repeat(v, n) == Repeat(v, n - 1) + [v];
    }
  }

  /** The unshuffled chromosome has one entry per operation, and job `j`
      occurs exactly as often as it has operations. */
  lemma {:induction false} LayoutCounts(jobs: seq<seq<Operation>>)
    ensures |Layout(jobs)| == TotalOps(jobs)
    ensures forall j :: 0 <= j < |jobs| ==> multiset(Layout(jobs))[j] == |jobs[j]|
    ensures forall x :: (x < 0 || x >= |jobs|) ==> multiset(Layout(jobs))[x] == 0
  {
    if jobs != [] {
      var n := |jobs| - 1;
      LayoutCounts(jobs[..n]);
      RepeatCount(n, |jobs[n]|);
      assert Layout(jobs) == Layout(jobs[..n]) + Repeat(n, |jobs[n]|);
      assert forall j :: 0 <= j < n ==> jobs[..n][j] == jobs[j];
    }
  }

  /** create_random_schedule: lays out the ids job by job, then shuffles them
      with `draws` as the shuffle's random indices. The result holds job `j`
      exactly once per operation of `j`, and nothing else. */
  method CreateRandomSchedule(jobs: seq<seq<Operation>>, draws: seq<nat>) returns (chromosome: seq<int>)
    requires |draws| == TotalOps(jobs) && ShuffleDraws(draws)
    ensures multiset(chromosome) == multiset(Layout(jobs))
    ensures |chromosome| == TotalOps(jobs)
    ensures forall j :: 0 <= j < |jobs| ==> multiset(chromosome)[j] == |jobs[j]|
    ensures forall k :: 0 <= k < |chromosome| ==> 0 <= chromosome[k] < |jobs|
    ensures chromosome == Shuffled(Layout(jobs), draws, TotalOps(jobs) - 1)
  {
    var operations := BuildLayout(jobs);
    LayoutCounts(jobs);
    var a := new int[|operations|](k requires 0 <= k < |operations| => operations[k]);
    assert a[..] == operations;
    Shuffle(a, draws);
    chromosome := a[..];
    ShuffledLayout(jobs, draws);
  }

  /** The shuffled layout holds job `j` exactly once per operation of `j`, and
      only job ids. */
  lemma ShuffledLayout(jobs: seq<seq<Operation>>, draws: seq<nat>)
    requires |draws| == TotalOps(jobs) && ShuffleDraws(draws)
    ensures var c := Shuffled(Layout(jobs), draws, TotalOps(jobs) - 1);
      && multiset(c) == multiset(Layout(jobs))
      && |c| == TotalOps(jobs)
      && (forall j :: 0 <= j < |jobs| ==> multiset(c)[j] == |jobs[j]|)
      && (forall k :: 0 <= k < |c| ==> 0 <= c[k] < |jobs|)
  {
    var c := Shuffled(Layout(jobs), draws, TotalOps(jobs) - 1);
    LayoutCounts(jobs);
    ShufflePermutes(Layout(jobs), draws, TotalOps(jobs) - 1);
    SameRange(c, Layout(jobs), |jobs|);
  }

  /** A rearrangement keeps every entry within the range of the original. */
  lemma SameRange(s: seq<int>, t: seq<int>, n: int)
    requires multiset(s) == multiset(t)
    requires forall k :: 0 <= k < |t| ==> 0 <= t[k] < n
    ensures forall k :: 0 <= k < |s| ==> 0 <= s[k] < n
  {
    forall k | 0 <= k < |s|
      ensures 0 <= s[k] < n
    {
      assert s[k] in multiset(t) by {
        assert s[k] in multiset(s);
      }
      var i :| 0 <= i < |t| && t[i] == s[k];
    }
  }

  /** The `extend` loop: job `j`'s id once per operation of job `j`, job by job. */
  method BuildLayout(jobs: seq<seq<Operation>>) returns (operations: seq<int>)
    ensures operations == Layout(jobs)
  {
    operations := [];
    var j := 0;
    while j < |jobs|
      invariant 0 <= j <= |jobs|
      invariant operations == Layout(jobs[..j])
    {
      operations := operations + Repeat(j, |jobs[j]|);
      assert jobs[..j + 1][..j] == jobs[..j];
      j := j + 1;
    }
    assert jobs[..|jobs|] == jobs;
  }

  /** The draws of Python's `random.shuffle` on `n` entries: for each `i` from
      the last index down to 1, an index `draws[i]` in `[0, i]`. */
  predicate ShuffleDraws(draws: seq<nat>)
  {
    forall i :: 0 < i < |draws| ==> draws[i] <= i
  }

  /** Fisher-Yates from position `i` down to 1: swap position `i` with
      position `draws[i]`, then continue with `i - 1`. */
  function Shuffled(s: seq<int>, draws: seq<nat>, i: int): (r: seq<int>)
    requires |draws| == |s| && ShuffleDraws(draws) && -1 <= i < |s|
    ensures |r| == |s|
    decreases i + 1
  {
    if i < 1 then s
    else
      var j := draws[i];
      Shuffled(s[i := s[j]][j := s[i]], draws, i - 1)
  }

  /** Shuffling permutes the entries: it never adds, drops or changes one. */
  lemma {:induction false} ShufflePermutes(s: seq<int>, draws: seq<nat>, i: int)
    requires |draws| == |s| && ShuffleDraws(draws) && -1 <= i < |s|
    ensures multiset(Shuffled(s, draws, i)) == multiset(s)
    decreases i + 1
  {
    if i >= 1 {
      var j := draws[i];
      var t := s[i := s[j]][j := s[i]];
      assert multiset(t) == multiset(s) by {
        if i != j {
          assert t == s[i := s[j]][j := s[i]];
        }
      }
      ShufflePermutes(t, draws, i - 1);
    }
  }

  /** Python's `random.shuffle`, in place: the array ends as `Shuffled` of its
      old contents, so its entries are permuted. */
  method Shuffle(a: array<int>, draws: seq<nat>)
    requires |draws| == a.Length && ShuffleDraws(draws)
    modifies a
    ensures a[..] == Shuffled(old(a[..]), draws, a.Length - 1)
    ensures multiset(a[..]) == multiset(old(a[..]))
  {
    var i := a.Length - 1;
    while i >= 1
      invariant -1 <= i < a.Length
      invariant Shuffled(a[..], draws, i) == Shuffled(old(a[..]), draws, a.Length - 1)
    {
      var j := draws[i];
      a[i], a[j] := a[j], a[i];
      i := i - 1;
    }
    ShufflePermutes(old(a[..]), draws, a.Length - 1);
  }

  /** Every machine number is a valid Python index into `machines` timers;
      `BranchAndBound.MachinesInRange` is the non-negative form the solver
      uses. */
  predicate MachinesInRange(jobs: seq<seq<Operation>>, machines: nat)
  {
    forall j, o :: 0 <= j < |jobs| && 0 <= o < |jobs[j]| ==> -(machines as int) <= jobs[j][o].machine < machines
  }

  /** A chromosome the engine can replay: it names jobs that exist, and no job
      more often than it has operations. */
  predicate Decodable(jobs: seq<seq<Operation>>, s: seq<int>)
  {
    && (forall k :: 0 <= k < |s| ==> 0 <= s[k] < |jobs|)
    && (forall j :: 0 <= j < |jobs| ==> multiset(s)[j] <= |jobs[j]|)
  }

  /** Every duration is non-negative. */
  predicate NonNegativeDurations(jobs: seq<seq<Operation>>)
  {
    forall j, o :: 0 <= j < |jobs| && 0 <= o < |jobs[j]| ==> jobs[j][o].duration >= 0
  }

  /** The timer shapes for `machines` machines and `n` jobs. */
  predicate Shaped(t: Timers, machines: nat, n: nat)
  {
    |t.machine| == machines && |t.job| == n && |t.count| == n
  }

  /** Replaying one chromosome entry `j`: its next operation starts once both
      its machine and the job are free, and both timers move to its end. */
  function Step(jobs: seq<seq<Operation>>, machines: nat, t: Timers, j: int): (r: Timers)
    requires MachinesInRange(jobs, machines) && Shaped(t, machines, |jobs|)
    requires 0 <= j < |jobs| && t.count[j] < |jobs[j]|
    ensures Shaped(r, machines, |jobs|)
    ensures r.count == t.count[j := t.count[j] + 1]
  {
    var op := jobs[j][t.count[j]];
    var m := PyIndex(op.machine, machines);
    var end := Max(t.machine[m], t.job[j]) + op.duration;
    Timers(t.machine[m := end], t.job[j := end], t.count[j := t.count[j] + 1])
  }

  /** The timers after replaying the chromosome `s` from all zeros. After any
      prefix, the counter of job `j` is the number of times `j` occurs in it,
      so the k-th occurrence of `j` replays `j`'s k-th operation. */
  function Replay(jobs: seq<seq<Operation>>, machines: nat, s: seq<int>): (t: Timers)
    requires MachinesInRange(jobs, machines) && Decodable(jobs, s)
    ensures Shaped(t, machines, |jobs|)
    ensures forall j :: 0 <= j < |jobs| ==> t.count[j] == multiset(s)[j]
  {
    if s == [] then Timers(seq(machines, _ => 0), seq(|jobs|, _ => 0), seq(|jobs|, _ => 0))
    else
      var n := |s| - 1;
      assert s == s[..n] + [s[n]];
      Step(jobs, machines, Replay(jobs, machines, s[..n]), s[n])
  }

  /** calculate_fitness: replays the chromosome with a timer per machine, a
      timer per job and an operation counter per job, and returns the largest
      machine timer. With non-negative durations that makespan is non-negative
      and no job finishes after it. */
  method CalculateFitness(schedule: seq<int>, jobs: seq<seq<Operation>>, machines: nat) returns (makespan: int)
    requires machines > 0
    requires MachinesInRange(jobs, machines) && Decodable(jobs, schedule)
    ensures makespan == MaxOf(Replay(jobs, machines, schedule).machine)
    ensures NonNegativeDurations(jobs) ==>
      0 <= makespan && forall j :: 0 <= j < |jobs| ==> Replay(jobs, machines, schedule).job[j] <= makespan
  {
    var machineTimers := new int[machines](_ => 0);
    var jobTimers := new int[|jobs|](_ => 0);
    var opCounters := new nat[|jobs|](_ => 0);
    var i := 0;
    while i < |schedule|
      invariant 0 <= i <= |schedule|
      invariant Decodable(jobs, schedule[..i])
      invariant machineTimers[..] == Replay(jobs, machines, schedule[..i]).machine
      invariant jobTimers[..] == Replay(jobs, machines, schedule[..i]).job
      invariant opCounters[..] == Replay(jobs, machines, schedule[..i]).count
    {
      ReplayStep(jobs, machines, schedule, i);
      ReplayEntry(machineTimers, jobTimers, opCounters, jobs, machines, schedule[i], Replay(jobs, machines, schedule[..i]));
      i := i + 1;
    }
    assert schedule[..|schedule|] == schedule;
    makespan := MaxOf(machineTimers[..]);
    if NonNegativeDurations(jobs) {
      JobsFinishByMakespan(jobs, machines, schedule);
      TimersNonNegative(jobs, machines, schedule);
    }
  }

  /** One pass of the fitness loop: look up the entry's next operation, start
      it once its machine and its job are free, move both timers to its end
      and count the operation. The arrays end up holding the `Step` state. */
  method ReplayEntry(machineTimers: array<int>, jobTimers: array<int>, opCounters: array<nat>,
                     jobs: seq<seq<Operation>>, machines: nat, jobId: int, ghost t: Timers)
    requires machineTimers != jobTimers
    requires MachinesInRange(jobs, machines) && Shaped(t, machines, |jobs|)
    requires 0 <= jobId < |jobs| && t.count[jobId] < |jobs[jobId]|
    requires machineTimers[..] == t.machine && jobTimers[..] == t.job && opCounters[..] == t.count
    modifies machineTimers, jobTimers, opCounters
    ensures machineTimers[..] == Step(jobs, machines, t, jobId).machine
    ensures jobTimers[..] == Step(jobs, machines, t, jobId).job
    ensures opCounters[..] == Step(jobs, machines, t, jobId).count
  {
    var opIndex := opCounters[jobId];
    var op := jobs[jobId][opIndex];
    var machineId := PyIndex(op.machine, machines);
    var start := Max(machineTimers[machineId], jobTimers[jobId]);
    var end := start + op.duration;
    machineTimers[machineId] := end;
    jobTimers[jobId] := end;
    opCounters[jobId] := opCounters[jobId] + 1;
  }

  /** Every prefix of a replayable chromosome is replayable. */
  lemma PrefixDecodable(jobs: seq<seq<Operation>>, s: seq<int>, k: nat)
    requires Decodable(jobs, s) && k <= |s|
    ensures Decodable(jobs, s[..k])
  {
    assert s == s[..k] + s[k..];
    assert multiset(s) == multiset(s[..k]) + multiset(s[k..]);
  }

  /** Replaying one more entry of a replayable chromosome is one `Step`. */
  lemma ReplayStep(jobs: seq<seq<Operation>>, machines: nat, s: seq<int>, i: nat)
    requires MachinesInRange(jobs, machines) && Decodable(jobs, s) && i < |s|
    ensures Decodable(jobs, s[..i]) && Decodable(jobs, s[..i + 1])
    ensures Replay(jobs, machines, s[..i]).count[s[i]] < |jobs[s[i]]|
    ensures Replay(jobs, machines, s[..i + 1]) == Step(jobs, machines, Replay(jobs, machines, s[..i]), s[i])
  {
    PrefixDecodable(jobs, s, i);
    PrefixDecodable(jobs, s, i + 1);
    assert s[..i + 1] == s[..i] + [s[i]];
    assert s[..i + 1][..i] == s[..i];
  }

  /** Every timer of `a` is at most the matching timer of `b`. */
  predicate NoLater(a: Timers, b: Timers)
  {
    && |a.machine| == |b.machine| && |a.job| == |b.job|
    && (forall m :: 0 <= m < |a.machine| ==> a.machine[m] <= b.machine[m])
    && (forall i :: 0 <= i < |a.job| ==> a.job[i] <= b.job[i])
  }

  /** Timers never decrease when an operation of non-negative duration is
      replayed. */
  lemma StepMonotone(jobs: seq<seq<Operation>>, machines: nat, t: Timers, j: int)
    requires MachinesInRange(jobs, machines) && Shaped(t, machines, |jobs|)
    requires 0 <= j < |jobs| && t.count[j] < |jobs[j]|
    requires NonNegativeDurations(jobs)
    ensures NoLater(t, Step(jobs, machines, t, j))
  {
  }

  /** With non-negative durations, the timers after a prefix are at most the
      timers after the whole chromosome. */
  lemma {:induction false} ReplayMonotone(jobs: seq<seq<Operation>>, machines: nat, s: seq<int>, k: nat)
    requires MachinesInRange(jobs, machines) && Decodable(jobs, s) && NonNegativeDurations(jobs)
    requires k <= |s|
    ensures Decodable(jobs, s[..k])
    ensures NoLater(Replay(jobs, machines, s[..k]), Replay(jobs, machines, s))
    decreases |s| - k
  {
    PrefixDecodable(jobs, s, k);
    if k < |s| {
      var n := |s| - 1;
      ReplayGrows(jobs, machines, s);
      assert s[..n][..k] == s[..k];
      ReplayMonotone(jobs, machines, s[..n], k);
      NoLaterTrans(Replay(jobs, machines, s[..k]), Replay(jobs, machines, s[..n]), Replay(jobs, machines, s));
    } else {
      assert s[..k] == s;
    }
  }

  /** Replaying the last entry of a chromosome moves no timer back. */
  lemma ReplayGrows(jobs: seq<seq<Operation>>, machines: nat, s: seq<int>)
    requires MachinesInRange(jobs, machines) && Decodable(jobs, s) && NonNegativeDurations(jobs)
    requires |s| > 0
    ensures Decodable(jobs, s[..|s| - 1])
    ensures NoLater(Replay(jobs, machines, s[..|s| - 1]), Replay(jobs, machines, s))
  {
    var n := |s| - 1;
    ReplayStep(jobs, machines, s, n);
    var before := Replay(jobs, machines, s[..n]);
    assert Replay(jobs, machines, s) == Step(jobs, machines, before, s[n]);
    StepMonotone(jobs, machines, before, s[n]);
  }

  /** `NoLater` is transitive. */
  lemma NoLaterTrans(a: Timers, b: Timers, c: Timers)
    requires NoLater(a, b) && NoLater(b, c)
    ensures NoLater(a, c)
  {
  }

  /** With non-negative durations every timer stays non-negative. */
  lemma TimersNonNegative(jobs: seq<seq<Operation>>, machines: nat, s: seq<int>)
    requires MachinesInRange(jobs, machines) && Decodable(jobs, s) && NonNegativeDurations(jobs)
    ensures forall m :: 0 <= m < machines ==> 0 <= Replay(jobs, machines, s).machine[m]
    ensures forall i :: 0 <= i < |jobs| ==> 0 <= Replay(jobs, machines, s).job[i]
  {
    ReplayMonotone(jobs, machines, s, 0);
    assert s[..0] == [];
  }

  /** With non-negative durations no job finishes after the largest machine
      timer: each job's timer is the end of its last operation, which is also
      the free time its machine had then, and machine timers only grow. */
  lemma {:induction false} JobsFinishByMakespan(jobs: seq<seq<Operation>>, machines: nat, s: seq<int>)
    requires machines > 0
    requires MachinesInRange(jobs, machines) && Decodable(jobs, s) && NonNegativeDurations(jobs)
    ensures forall j :: 0 <= j < |jobs| ==> Replay(jobs, machines, s).job[j] <= MaxOf(Replay(jobs, machines, s).machine)
  {
    var t := Replay(jobs, machines, s);
    if s == [] {
      assert t.machine[0] == 0;
    } else {
      var n := |s| - 1;
      PrefixDecodable(jobs, s, n);
      var before := Replay(jobs, machines, s[..n]);
      JobsFinishByMakespan(jobs, machines, s[..n]);
      StepMonotone(jobs, machines, before, s[n]);
      MaxOfMonotone(before.machine, t.machine);
      var m := PyIndex(jobs[s[n]][before.count[s[n]]].machine, machines);
      assert t.job[s[n]] == t.machine[m];
    }
  }

  /** The durations of a list of operations, in order (per operation, where
      `MachineAssignment.Durations` is per whole job). */
  function Durations(ops: seq<Operation>): seq<int>
  {
    seq(|ops|, k requires 0 <= k < |ops| => ops[k].duration)
  }

  /** The total duration replayed on machine `m` by the chromosome `s`. */
  function MachineWork(jobs: seq<seq<Operation>>, machines: nat, s: seq<int>, m: nat): int
    requires MachinesInRange(jobs, machines) && Decodable(jobs, s)
  {
    if s == [] then 0
    else
      var n := |s| - 1;
      ReplayStep(jobs, machines, s, n);
      var op := jobs[s[n]][Replay(jobs, machines, s[..n]).count[s[n]]];
      MachineWork(jobs, machines, s[..n], m) + (if PyIndex(op.machine, machines) == m then op.duration else 0)
  }

  /** A machine's timer is at least the total duration replayed on it. */
  lemma {:induction false} MachineTimerCoversWork(jobs: seq<seq<Operation>>, machines: nat, s: seq<int>, m: nat)
    requires MachinesInRange(jobs, machines) && Decodable(jobs, s) && m < machines
    ensures MachineWork(jobs, machines, s, m) <= Replay(jobs, machines, s).machine[m]
  {
    if s != [] {
      PrefixDecodable(jobs, s, |s| - 1);
      MachineTimerCoversWork(jobs, machines, s[..|s| - 1], m);
    }
  }

  /** A job's timer is at least the total duration of its replayed operations. */
  lemma {:induction false} JobTimerCoversWork(jobs: seq<seq<Operation>>, machines: nat, s: seq<int>, j: nat)
    requires MachinesInRange(jobs, machines) && Decodable(jobs, s) && j < |jobs|
    ensures Sum(Durations(jobs[j][..multiset(s)[j]])) <= Replay(jobs, machines, s).job[j]
  {
    if s != [] {
      var n := |s| - 1;
      ReplayStep(jobs, machines, s, n);
      assert s[..n + 1] == s;
      JobTimerCoversWork(jobs, machines, s[..n], j);
      if s[n] == j {
        var c := Replay(jobs, machines, s[..n]).count[j];
        assert Durations(jobs[j][..c + 1])[..c] == Durations(jobs[j][..c]);
      }
    }
  }

}

=== FILE: lists.dfy ===
/** Integer helpers shared by the schedulers: Python's two-argument `max`,
    `max` over a non-empty list, `sum`, and list indexing with negative
    indices. */
module Lists {

  /** Python's `max(a, b)`. */
  function Max(a: int, b: int): (r: int)
    ensures r >= a && r >= b
    ensures r == a || r == b
  {
    if a >= b then a else b
  }

  /** Python's `max(s)`; the list must be non-empty (Python raises on `max([])`). */
  function MaxOf(s: seq<int>): (m: int)
    requires |s| > 0
    ensures m in s
    ensures forall i :: 0 <= i < |s| ==> s[i] <= m
  {
    if |s| == 1 then s[0]
    else
      var rest := MaxOf(s[1..]);
      if s[0] >= rest then s[0] else rest
  }

  /** A pointwise larger list has a larger maximum. */
  lemma MaxOfMonotone(a: seq<int>, b: seq<int>)
    requires |a| == |b| > 0
    requires forall i :: 0 <= i < |a| ==> a[i] <= b[i]
    ensures MaxOf(a) <= MaxOf(b)
  {
    var k :| 0 <= k < |a| && a[k] == MaxOf(a);
    assert b[k] <= MaxOf(b);
  }

  /** Python's `sum(s)`. */
  function Sum(s: seq<int>): int
  {
    if s == [] then 0 else Sum(s[..|s| - 1]) + s[|s| - 1]
  }

  /** A sum of non-negative numbers is at least each of them. */
  lemma {:induction false} SumAtLeastEach(s: seq<int>, i: nat)
    requires forall k :: 0 <= k < |s| ==> 0 <= s[k]
    requires i < |s|
    ensures 0 <= s[i] <= Sum(s)
  {
    var n := |s| - 1;
    SumNonNegative(s[..n]);
    if i < n {
      SumAtLeastEach(s[..n], i);
    }
  }

  /** A sum of non-negative numbers is non-negative. */
  lemma {:induction false} SumNonNegative(s: seq<int>)
    requires forall k :: 0 <= k < |s| ==> 0 <= s[k]
    ensures 0 <= Sum(s)
  {
    if s != [] {
      SumNonNegative(s[..|s| - 1]);
    }
  }

  /** Adding `d` to one entry adds `d` to the sum. */
  lemma {:induction false} SumUpdate(s: seq<int>, k: nat, d: int)
    requires k < |s|
    ensures Sum(s[k := s[k] + d]) == Sum(s) + d
  {
    var n := |s| - 1;
    var t := s[k := s[k] + d];
    assert t[..n] == if k < n then s[..n][k := s[k] + d] else s[..n];
    if k < n {
      SumUpdate(s[..n], k, d);
    }
  }

  /** Python's `xs[i]` on a list of length `n`: a negative index counts from
      the end, and anything outside `[-n, n)` raises `IndexError`. */
  function PyIndex(i: int, n: nat): (r: nat)
    requires -(n as int) <= i < n
    ensures r < n
    ensures r == i || r == n + i
  {
    if i < 0 then n + i else i
  }

}

=== FILE: machine_assignment.dfy ===
/** The machine-assignment genetic representation: a chromosome gives, for
    every job, the machine that runs it as a whole, and its fitness is the
    largest per-machine load. */
module MachineAssignment {
  import opened Options
  import opened Lists

  /** A job of this representation; only its `duration` entry is read. */
  datatype Job = Job(duration: int)

  /** Every entry is a valid Python index into a list of `machines` timers. */
  predicate Assignable(schedule: seq<int>, machines: nat)
  {
    forall i :: 0 <= i < |schedule| ==> -(machines as int) <= schedule[i] < machines
  }

  /** Builds a chromosome: job `i` goes to machine `draws[i]`, the i-th value of
      `randint(0, num_machines - 1)`. With no jobs nothing is drawn; with jobs
      but no machine the first `randint` raises `ValueError` (an empty range). */
  method CreateRandomSchedule(jobs: seq<Job>, machines: int, draws: seq<int>) returns (r: Outcome<seq<int>>)
    requires |draws| == |jobs|
    requires machines >= 1 ==> forall i :: 0 <= i < |draws| ==> 0 <= draws[i] <= machines - 1
    ensures r.Raised? <==> |jobs| > 0 && machines < 1
    ensures r.Raised? ==> r.error == ValueError
    ensures r.Ok? ==> |r.value| == |jobs| && forall i :: 0 <= i < |r.value| ==> 0 <= r.value[i] < machines
    ensures r.Ok? ==> r.value == draws
  {
    var schedule := [];
    var i := 0;
    while i < |jobs|
      invariant 0 <= i <= |jobs|
      invariant schedule == draws[..i]
      invariant i > 0 ==> machines >= 1
    {
      if machines < 1 {
        return Raised(ValueError);
      }
      schedule := schedule + [draws[i]];
      i := i + 1;
    }
    r := Ok(schedule);
  }

  /** The total duration of the jobs that `schedule` puts on machine `m` (a
      negative entry names a machine counted from the end, as Python does). */
  function Load(jobs: seq<Job>, schedule: seq<int>, machines: nat, m: nat): (r: int)
    requires |schedule| <= |jobs| && Assignable(schedule, machines)
    ensures m >= machines ==> r == 0
  {
    if schedule == [] then 0
    else
      var i := |schedule| - 1;
      Load(jobs, schedule[..i], machines, m)
        + (if PyIndex(schedule[i], machines) == m then jobs[i].duration else 0)
  }

  /** All machine loads, machine by machine. */
  function Loads(jobs: seq<Job>, schedule: seq<int>, machines: nat): seq<int>
    requires |schedule| <= |jobs| && Assignable(schedule, machines)
  {
    seq(machines, m requires 0 <= m < machines => Load(jobs, schedule, machines, m))
  }

  /** The durations of the first `n` jobs, in job order (this module's jobs
      are whole tasks, unlike the operations `CulturalSchedule.Durations`
      reads). */
  function Durations(jobs: seq<Job>, n: nat): seq<int>
    requires n <= |jobs|
  {
    seq(n, i requires 0 <= i < n => jobs[i].duration)
  }

  /** calculate_fitness: accumulates every job's duration into the timer of its
      machine and returns the largest timer, which is the largest load. */
  method CalculateFitness(schedule: seq<int>, jobs: seq<Job>, machines: nat) returns (makespan: int)
    requires machines > 0
    requires |schedule| <= |jobs| && Assignable(schedule, machines)
    ensures exists m :: 0 <= m < machines && makespan == Load(jobs, schedule, machines, m)
    ensures forall m :: 0 <= m < machines ==> Load(jobs, schedule, machines, m) <= makespan
  {
    var timers := new int[machines](_ => 0);
    var i := 0;
    while i < |schedule|
      invariant 0 <= i <= |schedule|
      invariant forall m :: 0 <= m < machines ==> timers[m] == Load(jobs, schedule[..i], machines, m)
    {
      var slot := PyIndex(schedule[i], machines);
      timers[slot] := timers[slot] + jobs[i].duration;
      assert schedule[..i + 1][..i] == schedule[..i];
      i := i + 1;
    }
    assert schedule[..|schedule|] == schedule;
    assert timers[..] == Loads(jobs, schedule, machines);
    makespan := MaxOf(timers[..]);
  }

  /** The loads sum to the total duration of the scheduled jobs: every job is
      counted on exactly one machine. */
  lemma {:induction false} LoadsSumToTotal(jobs: seq<Job>, schedule: seq<int>, machines: nat)
    requires |schedule| <= |jobs| && Assignable(schedule, machines)
    ensures Sum(Loads(jobs, schedule, machines)) == Sum(Durations(jobs, |schedule|))
  {
    if schedule == [] {
      ZeroLoads(machines);
      assert Loads(jobs, schedule, machines) == seq(machines, _ => 0);
    } else {
      var i := |schedule| - 1;
      var before := Loads(jobs, schedule[..i], machines);
      var slot := PyIndex(schedule[i], machines);
      LoadsSumToTotal(jobs, schedule[..i], machines);
      assert Loads(jobs, schedule, machines) == before[slot := before[slot] + jobs[i].duration];
      SumUpdate(before, slot, jobs[i].duration);
      assert Durations(jobs, |schedule|)[..i] == Durations(jobs, i);
    }
  }

  /** A list of zeros sums to zero. */
  lemma {:induction false} ZeroLoads(n: nat)
    ensures Sum(seq(n, _ => 0)) == 0
  {
    if n > 0 {
      assert seq(n, _ => 0)[..n - 1] == seq(n - 1, _ => 0);
      ZeroLoads(n - 1);
    }
  }

  /** With non-negative durations, the machine a job is assigned to carries at
      least that job's duration. */
  lemma {:induction false} LoadCoversJob(jobs: seq<Job>, schedule: seq<int>, machines: nat, i: nat)
    requires |schedule| <= |jobs| && Assignable(schedule, machines)
    requires forall k :: 0 <= k < |jobs| ==> jobs[k].duration >= 0
    requires i < |schedule|
    ensures jobs[i].duration <= Load(jobs, schedule, machines, PyIndex(schedule[i], machines))
  {
    var n := |schedule| - 1;
    LoadNonNegative(jobs, schedule[..n], machines, PyIndex(schedule[i], machines));
    if i < n {
      LoadCoversJob(jobs, schedule[..n], machines, i);
    }
  }

  /** With non-negative durations every load is non-negative. */
  lemma {:induction false} LoadNonNegative(jobs: seq<Job>, schedule: seq<int>, machines: nat, m: nat)
    requires |schedule| <= |jobs| && Assignable(schedule, machines)
    requires forall k :: 0 <= k < |jobs| ==> jobs[k].duration >= 0
    ensures 0 <= Load(jobs, schedule, machines, m)
  {
    if schedule != [] {
      LoadNonNegative(jobs, schedule[..|schedule| - 1], machines, m);
    }
  }

  /** With non-negative durations the makespan lies between the longest
      scheduled job and the total duration of the scheduled jobs. */
  lemma MakespanBounds(jobs: seq<Job>, schedule: seq<int>, machines: nat)
    requires machines > 0
    requires |schedule| <= |jobs| && Assignable(schedule, machines)
    requires forall k :: 0 <= k < |jobs| ==> jobs[k].duration >= 0
    ensures forall i :: 0 <= i < |schedule| ==> jobs[i].duration <= MaxOf(Loads(jobs, schedule, machines))
    ensures MaxOf(Loads(jobs, schedule, machines)) <= Sum(Durations(jobs, |schedule|))
  {
    var loads := Loads(jobs, schedule, machines);
    forall i | 0 <= i < |schedule|
      ensures jobs[i].duration <= MaxOf(loads)
    {
      LoadCoversJob(jobs, schedule, machines, i);
      var slot := PyIndex(schedule[i], machines);
      assert loads[slot] == Load(jobs, schedule, machines, slot);
    }
    forall m | 0 <= m < machines
      ensures 0 <= loads[m]
    {
      LoadNonNegative(jobs, schedule, machines, m);
    }
    var top :| 0 <= top < machines && loads[top] == MaxOf(loads);
    SumAtLeastEach(loads, top);
    LoadsSumToTotal(jobs, schedule, machines);
  }

}

=== FILE: options.dfy ===
/** An optional value, standing for Python's `None` beside a real value, and
    the outcome of an operation that may raise a Python exception. */
module Options {

  datatype Option<+T> = None | Some(value: T)

  /** The Python exceptions the modelled code can raise. */
  datatype PyError = IndexError | ValueError

  /** A returned value, or the exception raised instead. */
  datatype Outcome<T> = Ok(value: T) | Raised(error: PyError)

}

=== FILE: sequential_scheduler.dfy ===
/** The simple sequential scheduler of the demo front end: jobs carry a
    priority derived from their dependency count, and `SimpleSchedule` lays
    every operation back to back on its machine (machines numbered from 1),
    in job order and then operation order, ignoring when the job itself is
    free. */
module SequentialScheduler {
  import opened Options
  import opened Lists

  /** One operation: its id, duration and 1-based machine number. */
  datatype Op = Op(id: int, dur: int, mach: int)

  /** One placed operation: job, operation, machine number as given, start
      and end. */
  datatype Assign = Assign(j: int, o: int, m: int, s: int, e: int)

  /** A job; only its priority is ever updated. */
  class Job {
    const id: int
    const ops: seq<Op>
    const deps: seq<int>
    var pri: int

    constructor(id: int, ops: seq<Op>, deps: seq<int>)
      ensures this.id == id && this.ops == ops && this.deps == deps && pri == 0
    {
      this.id := id;
      this.ops := ops;
      this.deps := deps;
      pri := 0;
    }

    /** `next_op(prog)`: the operation at `prog` (a negative `prog` counts
        from the end, as Python indexing does) while `prog < len(ops)`, else
        `None`. */
    function NextOp(prog: int): (r: Option<Op>)
      requires -|ops| <= prog
      ensures r.None? <==> Complete(prog)
      ensures 0 <= prog && r.Some? ==> r.value == ops[prog]
    {
      if prog < |ops| then Some(ops[PyIndex(prog, |ops|)]) else None
    }

    /** `complete(prog)`: every operation has been dispatched. */
    predicate Complete(prog: int)
    {
      prog >= |ops|
    }
  }

  /** An operation together with the id of the job it belongs to. */
  datatype Entry = Entry(job: int, op: Op)

  /** A job's operations, in order, tagged with its id. */
  function JobEntries(job: Job): seq<Entry>
  {
    seq(|job.ops|, k requires 0 <= k < |job.ops| => Entry(job.id, job.ops[k]))
  }

  /** Every operation of every job, in job order and then operation order. */
  function Entries(jobs: seq<Job>): seq<Entry>
  {
    if jobs == [] then [] else Entries(jobs[..|jobs| - 1]) + JobEntries(jobs[|jobs| - 1])
  }

  /** `op.mach - 1` is a valid Python index into `machines` timers. */
  predicate SlotOk(mach: int, machines: nat)
  {
    -(machines as int) <= mach - 1 < machines
  }

  /** The timeline slot of a machine number: `timeline[mach - 1]`, where 0
      (or less) wraps around to the end as Python indexing does. */
  function Slot(mach: int, machines: nat): nat
    requires SlotOk(mach, machines)
  {
    PyIndex(mach - 1, machines)
  }

  /** Every operation names a machine the timeline can index. */
  predicate EntriesOk(entries: seq<Entry>, machines: nat)
  {
    forall k :: 0 <= k < |entries| ==> SlotOk(entries[k].op.mach, machines)
  }

  /** Every operation of every job names a machine the timeline can index. */
  predicate JobsOk(jobs: seq<Job>, machines: nat)
  {
    forall j, k :: 0 <= j < |jobs| && 0 <= k < |jobs[j].ops| ==> SlotOk(jobs[j].ops[k].mach, machines)
  }

  lemma {:induction false} EntriesOfJobsOk(jobs: seq<Job>, machines: nat)
    requires JobsOk(jobs, machines)
    ensures EntriesOk(Entries(jobs), machines)
  {
    if jobs != [] {
      EntriesOfJobsOk(jobs[..|jobs| - 1], machines);
    }
  }

  /** Laying out one more entry moves its machine's free time on by its
      duration and appends its assignment, starting at that free time. */
  lemma LayOne(entries: seq<Entry>, e: Entry, machines: nat)
    requires EntriesOk(entries, machines) && SlotOk(e.op.mach, machines)
    ensures EntriesOk(entries + [e], machines)
    ensures var t, slot := Timeline(entries, machines), Slot(e.op.mach, machines);
      && Timeline(entries + [e], machines) == t[slot := t[slot] + e.op.dur]
      && Schedule(entries + [e], machines)
         == Schedule(entries, machines) + [Assign(e.job, e.op.id, e.op.mach, t[slot], t[slot] + e.op.dur)]
  {
    assert (entries + [e])[..|entries|] == entries;
  }

  /** The machine free times after laying out `entries` from all zeros. */
  function Timeline(entries: seq<Entry>, machines: nat): (t: seq<int>)
    requires EntriesOk(entries, machines)
    ensures |t| == machines
  {
    if entries == [] then seq(machines, _ => 0)
    else
      var n := |entries| - 1;
      var before := Timeline(entries[..n], machines);
      var slot := Slot(entries[n].op.mach, machines);
      before[slot := before[slot] + entries[n].op.dur]
  }

  /** The assignments made while laying out `entries`: each operation starts
      when its machine is free and ends `dur` later. */
  function Schedule(entries: seq<Entry>, machines: nat): (r: seq<Assign>)
    requires EntriesOk(entries, machines)
    ensures |r| == |entries|
    ensures forall k :: 0 <= k < |r| ==> SlotOk(r[k].m, machines)
  {
    if entries == [] then []
    else
      var n := |entries| - 1;
      var e := entries[n];
      var start := Timeline(entries[..n], machines)[Slot(e.op.mach, machines)];
      Schedule(entries[..n], machines) + [Assign(e.job, e.op.id, e.op.mach, start, start + e.op.dur)]
  }

  /** The total duration laid out on timeline slot `slot`. */
  function Load(entries: seq<Entry>, machines: nat, slot: nat): int
    requires EntriesOk(entries, machines)
  {
    if entries == [] then 0
    else
      var n := |entries| - 1;
      Load(entries[..n], machines, slot)
        + (if Slot(entries[n].op.mach, machines) == slot then entries[n].op.dur else 0)
  }

  /** The end of the last assignment in `sched` on timeline slot `slot`, or 0
      when there is none. */
  function LastEnd(sched: seq<Assign>, machines: nat, slot: nat): int
    requires forall k :: 0 <= k < |sched| ==> SlotOk(sched[k].m, machines)
  {
    if sched == [] then 0
    else if Slot(sched[|sched| - 1].m, machines) == slot then sched[|sched| - 1].e
    else LastEnd(sched[..|sched| - 1], machines, slot)
  }

  class Scheduler {
    const machines: int
    var jobs: seq<Job>
    var best: Option<seq<Assign>>
    var bestMs: int
    var allSols: seq<seq<Assign>>

    /** Records the machines and jobs, starts with no best schedule and a
        best makespan of 10**9, and sets every job's priority to minus its
        number of dependencies. */
    constructor(machines: int, jobs: seq<Job>)
      modifies set j | j in jobs
      ensures this.machines == machines && this.jobs == jobs
      ensures best == None && bestMs == 1_000_000_000 && allSols == []
      ensures forall k :: 0 <= k < |jobs| ==> jobs[k].pri == -|jobs[k].deps|
    {
      this.machines := machines;
      this.jobs := jobs;
      best := None;
      bestMs := 1_000_000_000;
      allSols := [];
      new;
      for i := 0 to |jobs|
        invariant this.jobs == jobs && best == None && bestMs == 1_000_000_000 && allSols == []
        invariant forall k :: 0 <= k < i ==> jobs[k].pri == -|jobs[k].deps|
      {
        jobs[i].pri := -|jobs[i].deps|;
      }
    }

    /** simple_schedule: walks the jobs and their operations in order, starts
        each operation when its machine is free (at `timeline[op.mach - 1]`),
        records the assignment with the machine number as given, and returns
        the assignments with the largest machine free time. */
    method SimpleSchedule() returns (schedule: seq<Assign>, makespan: int)
      requires machines > 0 && JobsOk(jobs, machines)
      ensures EntriesOk(Entries(jobs), machines)
      ensures schedule == Schedule(Entries(jobs), machines)
      ensures makespan == MaxOf(Timeline(Entries(jobs), machines))
      ensures exists slot :: 0 <= slot < machines && makespan == Load(Entries(jobs), machines, slot)
      ensures forall slot :: 0 <= slot < machines ==> Load(Entries(jobs), machines, slot) <= makespan
    {
      var timeline := new int[machines](_ => 0);
      schedule := [];
      for i := 0 to |jobs|
        invariant EntriesOk(Entries(jobs[..i]), machines)
        invariant timeline[..] == Timeline(Entries(jobs[..i]), machines)
        invariant schedule == Schedule(Entries(jobs[..i]), machines)
      {
        assert jobs[..i + 1][..i] == jobs[..i];
        EntriesOfJobsOk(jobs[..i + 1], machines);
        schedule := LayJob(timeline, schedule, jobs[i], Entries(jobs[..i]));
      }
      assert jobs[..|jobs|] == jobs;
      makespan := MaxOf(timeline[..]);
      MakespanIsLargestLoad(Entries(jobs), machines);
    }

    /** The inner loop of simple_schedule: lays one job's operations after
        everything laid out so far (`done`). */
    method LayJob(timeline: array<int>, sched: seq<Assign>, job: Job, ghost done: seq<Entry>)
      returns (schedule: seq<Assign>)
      requires timeline.Length == machines >= 0
      requires EntriesOk(done, machines) && EntriesOk(done + JobEntries(job), machines)
      requires forall k :: 0 <= k < |job.ops| ==> SlotOk(job.ops[k].mach, machines)
      requires timeline[..] == Timeline(done, machines) && sched == Schedule(done, machines)
      modifies timeline
      ensures timeline[..] == Timeline(done + JobEntries(job), machines)
      ensures schedule == Schedule(done + JobEntries(job), machines)
    {
      schedule := sched;
      assert done + JobEntries(job)[..0] == done;
      for k := 0 to |job.ops|
        invariant EntriesOk(done + JobEntries(job)[..k], machines)
        invariant timeline[..] == Timeline(done + JobEntries(job)[..k], machines)
        invariant schedule == Schedule(done + JobEntries(job)[..k], machines)
      {
        var op := job.ops[k];
        var mIdx := Slot(op.mach, machines);
        var start := timeline[mIdx];
        var end := start + op.dur;
        timeline[mIdx] := end;
        schedule := schedule + [Assign(job.id, op.id, op.mach, start, end)];
        LayOne(done + JobEntries(job)[..k], Entry(job.id, op), machines);
        assert done + JobEntries(job)[..k + 1] == (done + JobEntries(job)[..k]) + [Entry(job.id, op)];
      }
      assert JobEntries(job)[..|job.ops|] == JobEntries(job);
    }
  }

  /** One assignment per operation, in the same order, each recording its
      job, operation and machine number and lasting exactly its duration. */
  lemma {:induction false} ScheduleFollowsEntries(entries: seq<Entry>, machines: nat)
    requires EntriesOk(entries, machines)
    ensures var sched := Schedule(entries, machines);
      && |sched| == |entries|
      && forall k :: 0 <= k < |entries| ==>
           && sched[k].j == entries[k].job && sched[k].o == entries[k].op.id && sched[k].m == entries[k].op.mach
           && sched[k].e - sched[k].s == entries[k].op.dur
  {
    if entries != [] {
      ScheduleFollowsEntries(entries[..|entries| - 1], machines);
    }
  }

  /** Each machine's free time is the total duration laid out on it. */
  lemma {:induction false} TimelineIsLoad(entries: seq<Entry>, machines: nat)
    requires EntriesOk(entries, machines)
    ensures forall slot :: 0 <= slot < machines ==> Timeline(entries, machines)[slot] == Load(entries, machines, slot)
  {
    if entries != [] {
      TimelineIsLoad(entries[..|entries| - 1], machines);
    }
  }

  /** Each machine's free time is the end of the last assignment on it (0 for
      an unused machine). */
  lemma {:induction false} TimelineIsLastEnd(entries: seq<Entry>, machines: nat)
    requires EntriesOk(entries, machines)
    ensures ScheduleOk(entries, machines)
    ensures forall slot :: 0 <= slot < machines ==>
      Timeline(entries, machines)[slot] == LastEnd(Schedule(entries, machines), machines, slot)
  {
    ScheduleFollowsEntries(entries, machines);
    if entries != [] {
      var n := |entries| - 1;
      TimelineIsLastEnd(entries[..n], machines);
      assert Schedule(entries, machines)[..n] == Schedule(entries[..n], machines);
    }
  }

  /** Every assignment of the schedule names a machine the timeline indexes. */
  ghost predicate ScheduleOk(entries: seq<Entry>, machines: nat)
    requires EntriesOk(entries, machines)
  {
    forall k :: 0 <= k < |Schedule(entries, machines)| ==> SlotOk(Schedule(entries, machines)[k].m, machines)
  }

  /** A prefix of the entries lays out a prefix of the schedule. */
  lemma {:induction false} SchedulePrefix(entries: seq<Entry>, machines: nat, k: nat)
    requires EntriesOk(entries, machines) && k <= |entries|
    ensures EntriesOk(entries[..k], machines)
    ensures |Schedule(entries, machines)| == |entries|
    ensures Schedule(entries, machines)[..k] == Schedule(entries[..k], machines)
    decreases |entries|
  {
    ScheduleFollowsEntries(entries, machines);
    if k < |entries| {
      var n := |entries| - 1;
      SchedulePrefix(entries[..n], machines, k);
      assert entries[..n][..k] == entries[..k];
    } else {
      assert entries[..k] == entries;
    }
  }

  /** Back to back: every assignment starts exactly when the previous
      assignment on its machine ended, or at 0 if it is the machine's first;
      the job's own previous end plays no part. */
  lemma BackToBack(entries: seq<Entry>, machines: nat)
    requires EntriesOk(entries, machines)
    ensures ScheduleOk(entries, machines)
    ensures forall k :: 0 <= k < |Schedule(entries, machines)| ==>
      Schedule(entries, machines)[k].s
        == LastEnd(Schedule(entries, machines)[..k], machines, Slot(Schedule(entries, machines)[k].m, machines))
  {
    TimelineIsLastEnd(entries, machines);
    ScheduleFollowsEntries(entries, machines);
    forall k | 0 <= k < |entries|
      ensures Schedule(entries, machines)[k].s
        == LastEnd(Schedule(entries, machines)[..k], machines, Slot(Schedule(entries, machines)[k].m, machines))
    {
      StartIsLastEnd(entries, machines, k);
    }
  }

  /** The `k`-th assignment starts at the end of the last earlier one on its
      machine. */
  lemma StartIsLastEnd(entries: seq<Entry>, machines: nat, k: nat)
    requires EntriesOk(entries, machines) && k < |entries|
    ensures ScheduleOk(entries, machines) && |Schedule(entries, machines)| == |entries|
    ensures Schedule(entries, machines)[k].s
      == LastEnd(Schedule(entries, machines)[..k], machines, Slot(Schedule(entries, machines)[k].m, machines))
  {
    ScheduleFollowsEntries(entries, machines);
    TimelineIsLastEnd(entries, machines);
    SchedulePrefix(entries, machines, k + 1);
    SchedulePrefix(entries, machines, k);
    TimelineIsLastEnd(entries[..k], machines);
    assert entries[..k + 1][..k] == entries[..k];
    assert Schedule(entries, machines)[k] == Schedule(entries[..k + 1], machines)[k];
  }

  /** The makespan is the largest total duration laid out on any machine. */
  lemma MakespanIsLargestLoad(entries: seq<Entry>, machines: nat)
    requires machines > 0 && EntriesOk(entries, machines)
    ensures exists slot :: 0 <= slot < machines && MaxOf(Timeline(entries, machines)) == Load(entries, machines, slot)
    ensures forall slot :: 0 <= slot < machines ==> Load(entries, machines, slot) <= MaxOf(Timeline(entries, machines))
  {
    TimelineIsLoad(entries, machines);
    var t := Timeline(entries, machines);
    var top :| 0 <= top < machines && t[top] == MaxOf(t);
  }

}
